=== FILE: README.md ===
# Canvas LMS API adapter: a Dafny model of its core

This project models the request and token core of the PHP Canvas LMS SDK
`tonylabs/canvas-lms-api-adapter` and proves properties of it. The model covers six parts:

- **TokenManager**: the OAuth 2.0 access-token lifecycle.
  - Expiry uses a 300-second safety margin.
  - A refresh-token grant (section 6 of RFC 6749) is applied with `expires_in` defaulting to 3600 seconds and an optional rotated refresh token (section 5.1 of RFC 6749).
  - The cache record outlives the token it holds by one hour, and the cached state is restored and cleared.
  - The clock (`now`), the cache (a map) and the grant's HTTP outcome are parameters.
- **Paginator**: the forward cursor driven by the next/prev/first/last links of each page.
  - The server is a finite map from URL to page.
  - `all()` is proved over a finite chain of next links.
- **RequestBuilder**: the fluent builder. It covers:
  - the ordered query-variable array with overwrite in place;
  - the `k=v&k=v` query text and the JSON body chosen by method;
  - exactly what `reset()` clears, and the page key derived from the endpoint;
  - `send` over an abstract transport, and `paginate` with its lazily created paginator.
- **Response**: the keyed container, with array access, the integer-position iterator, and the `__serialize`/`__unserialize` pair.
- **CanvasConfig**: caller settings merged over environment-backed defaults (`array_merge`), the typed getters with their fall-backs, and the choice between an auto-refreshing and a plain-token request.
- **PageSizeRule**: the page-size preservation logic of `tests/pagination.php`. It parses the query of a pagination URL and restores the earlier page size when the URL lacks one. The test script reaches that rule only after `$objRequestBuilder->getPaginator(5)` at `tests/pagination.php:22`, a method `RequestBuilder` does not define; as written the script stops there with an Error, so the rule is modelled on its own (`PageSizeRule.PreservePageSize`).

Supporting modules model the PHP semantics the core relies on:

- `Base`: Option and Result.
- `Decimal`: integer ↔ decimal text.
- `PhpArrays`: ordered arrays.
  - Arrays keep insertion order.
  - Keys are integers or strings, and a string that spells a canonical integer is stored as that integer.
  - An array has a next-free integer key.
  - `array_merge` is modelled.
- `PhpValues`: null, bool, int, string and array values, with PHP string conversion, truthiness, `isset`, `??`, and coercion to `string`/`bool` for typed returns.
- `QueryStrings`: the builder's query text, and `parse_str` on text that needs no decoding.

Each PHP mutator is a pure function from state to state. An operation that can throw returns a `Result`, and an operation that talks to the network receives the answer as a parameter. It also reports what it sent.

## Model

| member | source | states |
|---|---|---|
| TokenManager.RTrimSlash | src/TokenManager.php:24 | the stored domain is a prefix of the given one, does not end in `/`, and only `/` characters were removed |
| TokenManager.ExpiryRule | src/TokenManager.php:50-57 | `IsTokenExpired`: a missing or falsy token or expiry counts as expired; otherwise the token is expired exactly when at most 300 seconds remain |
| TokenManager.ExpiryMonotonic | src/TokenManager.php:50-57 | once expired, a token stays expired at every later time |
| TokenManager.Save | src/TokenManager.php:165-176 | saving writes the manager's own key and leaves every other cache entry as it was |
| TokenManager.SaveTtl | src/TokenManager.php:174 | the cache record lives until one hour after the token's expiry, or one hour when no expiry is set |
| TokenManager.Load | src/TokenManager.php:151-160 | loading never changes the domain, client credentials or cache key |
| TokenManager.SaveLoadRoundTrip | src/TokenManager.php:151-176 | loading what was just saved restores the token state exactly |
| TokenManager.LoadRefreshToken | src/TokenManager.php:155-159 | a cached refresh token overrides the held one and a missing one keeps it; the cached access token is taken as stored |
| TokenManager.LoadNothing | src/TokenManager.php:153-155 | a missing cache entry, or one that is not an array, leaves the manager unchanged |
| TokenManager.Construct | src/TokenManager.php:23-34 | the domain is right-trimmed of `/`, the cache key is the prefix plus the digest of the raw domain and client id, with no cached array the manager holds no token and keeps the given refresh token, and with a cached array it takes that array's access token and expiry and its refresh token when one is stored |
| TokenManager.ConstructReusesSaved | src/TokenManager.php:23-34 | a new manager over the state an earlier manager with the same domain and client saved takes over its access token, expiry and refresh token, and while that token is unexpired `getValidToken` returns it without a grant request |
| TokenManager.Refresh | src/TokenManager.php:62-119 | a failed refresh changes neither manager nor cache; a request is sent exactly when the refresh token is truthy, and it is the grant carrying this manager's credentials |
| TokenManager.RefreshSuccess | src/TokenManager.php:84-96 | success requires an answered grant with an access token; the expiry becomes now plus `expires_in` (default 3600); the refresh token rotates only when one is returned; the cache then loads back the new state |
| TokenManager.RefreshFailures | src/TokenManager.php:64-117 | an empty refresh token, an answer without `access_token`, and a client error each produce their own exception and message, the last one carrying the error description (or the exception message) and the status code |
| TokenManager.RefreshedTokenValid | src/TokenManager.php:50-57 | a freshly granted token with a lifetime above 300 seconds is valid at once and counts as expired 300 seconds before its lifetime ends |
| TokenManager.GetValidToken | src/TokenManager.php:39-45 | an unexpired token is returned with no request and no change of state; an expired one is refreshed first, the call fails exactly when the refresh fails, and on success the returned token is the one held afterwards |
| TokenManager.SetAccessTokenDefault | src/TokenManager.php:124-129 | `setAccessToken($token)` without a lifetime is `setAccessToken($token, 3600)`: the token gets one hour, so it is valid 3299 seconds later and expired 3300 seconds later, and the cache reloads it |
| TokenManager.SetAccessTokenValid | src/TokenManager.php:124-129 | `SetAccessToken`: a token set by hand is expired exactly from 300 seconds before its lifetime ends, and a reload of the cache returns it |
| TokenManager.SetRefreshTokenUsed | src/TokenManager.php:142-146 | the new refresh token is the one the next grant sends, and it survives a reload of the cache |
| TokenManager.ClearCacheExpires | src/TokenManager.php:181-186 | `ClearCache`: after clearing, the token is expired at every time and the refresh token is kept; loading from the cleared cache changes nothing |
| Paginator.Fetch | src/Paginator.php:40-41 | a request succeeds exactly for URLs the server holds, and answers that page |
| Paginator.New | src/Paginator.php:14-19 | a new cursor has no page, more pages to come, a pending first request and page number 0 |
| Paginator.Reset | src/Paginator.php:139-145 | a reset cursor equals a new cursor of the same page size |
| Paginator.ResetIdempotent | src/Paginator.php:139-145 | resetting twice is resetting once |
| Paginator.Arrived | src/Paginator.php:44 | after a page arrives, more pages remain exactly when it has a next link |
| Paginator.NextPage | src/Paginator.php:24-54 | with no more pages the result is null and nothing is fetched; a failure changes nothing; only the first request fetches the start URL, and later ones follow the current page's next link; a page returned is the one fetched, and it decides whether more pages remain; a null result ends the paging |
| Paginator.FirstPage | src/Paginator.php:29-34 | the first `page()` after a reset fetches the start URL and numbers it page 1 |
| Paginator.LaterPage | src/Paginator.php:36-42 | a later `page()` follows the next link and counts one page further; without a next link it answers null, sends nothing, and so does every call after it |
| Paginator.Previous | src/Paginator.php:59-70 | with no prev link nothing changes; otherwise exactly the prev link is fetched, the call succeeds exactly when the server has it and then answers that page, the page number drops by one but not below 1, and whether more pages remain is untouched |
| Paginator.PreviousPageNumber | src/Paginator.php:66-68 | going back keeps the page number non-negative and never above where it was, and never below 1 from page 1 or above |
| Paginator.First | src/Paginator.php:75-86 | without a truthy first link, `first()` is a reset followed by `page()`; with one, it fetches exactly that link, succeeds exactly when the server has it and answers that page, lands on page 1, and a failure leaves the cursor as it was |
| Paginator.FirstLandsOnPageOne | src/Paginator.php:83-84 | after a successful `first()` the cursor is on page 1, and it has more pages exactly when that page links onward |
| Paginator.Last | src/Paginator.php:91-102 | without a truthy last link nothing changes; otherwise exactly the last link is fetched, the call succeeds exactly when the server has it and answers that page, a failure leaves the cursor as it was, and a page answered by `last()` ends the paging and leaves the page number as it was |
| Paginator.LastEndsPaging | src/Paginator.php:98 | after `last()` answers, `page()` answers null and sends nothing, even when the last page links onward |
| Paginator.GoToUrl | src/Paginator.php:163-172 | exactly the given URL is fetched; on success the cursor holds that page, has more pages exactly when the page has a next link, is past its first request and is on page 0 (unknown); on failure nothing changes |
| Paginator.All | src/Paginator.php:150-158 | over a finite chain of next links, `all()` fetches exactly the chain in order; it succeeds exactly when the last URL exists; the result is the in-order `array_merge` of the bodies, and it ends with no more pages and the page count equal to the chain length |
| Paginator.GatherLists | src/Paginator.php:154-156 | when every page holds a list, `all()` returns the concatenation of all items, page by page |
| RequestBuilder.Fresh | src/RequestBuilder.php:16-24 | a new builder has uninitialized endpoint and method, empty options and query, no data, no paginator, and page key `per_page` |
| RequestBuilder.Reset | src/RequestBuilder.php:39-48 | `reset()` nulls the endpoint and method, empties the options, drops data and the paginator, and restores the page key, but keeps the query variables and the response flag |
| RequestBuilder.ResetKeepsExactly | src/RequestBuilder.php:39-48 | two builders reset to the same state exactly when their query variables and response flags agree, so nothing else survives a reset |
| RequestBuilder.AfterLast | src/RequestBuilder.php:56 | the page key is a suffix of the endpoint containing no `/`, preceded by a `/` when the endpoint has one, and the whole endpoint otherwise |
| RequestBuilder.SetEndpoint | src/RequestBuilder.php:53-82 | `setEndpoint` and its aliases change only the endpoint and the page key |
| RequestBuilder.PageKeyOfEndpoint | src/RequestBuilder.php:53-58 | the page key is the endpoint's last path segment: the whole endpoint without `/`, and empty for a trailing `/` |
| RequestBuilder.CoursesPageKey | src/RequestBuilder.php:53-58 | `/api/v1/courses` pages under the key `courses` |
| RequestBuilder.GetCourses | src/RequestBuilder.php:118-122 | `getCourses()` sets the courses endpoint and GET and nothing else, leaving the page key alone |
| RequestBuilder.WithQueryString | src/RequestBuilder.php:136-146 | an array argument replaces the query variables and nothing else |
| RequestBuilder.WithQueryStringAsWritten | src/RequestBuilder.php:136-146 | only the array form completes; query text raises a TypeError, and the builder it leaves holds the variables `parse_str` had already stored and is otherwise unchanged |
| RequestBuilder.WithQueryStringIntended | src/RequestBuilder.php:136-146 | query text becomes the parsed variables, as a well-formed array, and nothing else changes |
| RequestBuilder.QueryTextRejected | src/RequestBuilder.php:139-144 | `withQueryString('q=x')` raises, where the intended builder holds exactly `q` = `x`; the builder left behind by the error already equals the intended one |
| RequestBuilder.QueryTextAdopted | src/RequestBuilder.php:141-143 | with the text form corrected, a builder takes over another builder's query text and gets its variables back in order, as strings |
| RequestBuilder.AddQueryVar | src/RequestBuilder.php:159-163 | exactly one variable is written; every other key reads as before; an existing key keeps its place, and a new one is appended last |
| RequestBuilder.SetKeepsPositions | src/RequestBuilder.php:161 | overwriting a key moves no key, and writing a new key appends it |
| RequestBuilder.Q | src/RequestBuilder.php:168-179 | `q()` writes the variable `q` and leaves the other variables and every other builder field unchanged |
| RequestBuilder.PageSize | src/RequestBuilder.php:184-187 | `pageSize()` writes the variable `pagesize` and leaves the others |
| RequestBuilder.Page | src/RequestBuilder.php:192-195 | `page()` writes the variable `page` and leaves the others |
| RequestBuilder.Raw | src/RequestBuilder.php:200-204 | `raw()` clears only the response flag |
| RequestBuilder.AsJsonResponse | src/RequestBuilder.php:209-213 | `asJsonResponse()` sets only the response flag |
| RequestBuilder.SetMethod | src/RequestBuilder.php:271-283 | `setMethod` and `method` change only the method |
| RequestBuilder.JsonOptions | src/RequestBuilder.php:218-246 | for GET and lower-case `delete` the options stay as they are; otherwise `json` holds the data when the data is non-empty and is absent when it is empty, and every other option is unchanged |
| RequestBuilder.BuildRequestJson | src/RequestBuilder.php:218-246 | fails exactly when the method was never initialized, and otherwise changes only the options, which become those `JsonOptions` gives for the method and data |
| RequestBuilder.JsonBodyByMethod | src/RequestBuilder.php:219 | GET and `delete` send no body, while upper-case DELETE and POST send their data as JSON |
| RequestBuilder.QueryOptions | src/RequestBuilder.php:251-266 | GET and POST set `query` to the built query text and keep every other option; other methods keep the options as they are |
| RequestBuilder.BuildRequestQuery | src/RequestBuilder.php:251-266 | fails exactly when the method was never initialized, and otherwise changes only the options, which become those `QueryOptions` gives for the method and query variables |
| RequestBuilder.QueryTextReadsBack | src/RequestBuilder.php:256-263 | the query text of a GET or POST lists every variable as `key=value` in insertion order, so parsing it gives the variables back as strings |
| RequestBuilder.Send | src/RequestBuilder.php:329-336 | exactly one request is made, and only when method and endpoint are both set; it carries the options built for that method; it succeeds exactly when method and endpoint are set, the transport call succeeds and the response is not JSON, and the Response holds the body unchanged as its data with the page key as its table name; the builder resets exactly when asked and only on success |
| RequestBuilder.SendResetsIffAsked | src/RequestBuilder.php:334 | a successful send with reset equals the reset of the send without it, and the query variables survive either way |
| RequestBuilder.SendGet | src/RequestBuilder.php:288-292 | `get($endpoint)` sets a truthy endpoint first, then GET, then sends with reset |
| RequestBuilder.SendWith | src/RequestBuilder.php:297-324 | `post`/`put`/`patch`/`delete` send with their own method and with reset, as `send()`'s default argument gives, and a request goes out exactly when the endpoint is set |
| RequestBuilder.Paginate | src/RequestBuilder.php:341-351 | an existing paginator is the one moved on by one page (the requested size is then ignored), and a new one takes the requested size; a null page drops the paginator and nulls the endpoint (reset) |
| RequestBuilder.PageStep | src/Paginator.php:24-46 | the first page sets `page=1` and GET and fetches the endpoint with the built query; on success the builder holds the cursor `page()` moved on, with the page and the URLs `page()` gives; a failure keeps the paginator as it was, and a finished paginator answers null without a request |
| RequestBuilder.PaginateDefault | src/RequestBuilder.php:341-351 | `paginate()` without an argument is `paginate(100)`: a paginator it creates has size 100, and its first request carries `pagesize=100` |
| RequestBuilder.FirstPaginate | src/RequestBuilder.php:341-351 | the first `paginate` asks for page 1 of the endpoint with `pagesize` set, as a GET |
| RequestBuilder.PaginateContinues | src/RequestBuilder.php:343-346 | the paginator is created once and reused: after a first page with a next link, the second `paginate` fetches exactly that link, answers its page as page 2 and keeps the first page size |
| RequestBuilder.PaginateRestarts | src/RequestBuilder.php:346-349 | after a null page the builder has no paginator and a null endpoint, so the next `paginate` fails on the endpoint before fetching anything |
| Response.CursorMoves | src/Response.php:16-50 | `Count`, `Next`, `Rewind`, `Valid`: a new response starts at position 0 with its data as given; `rewind`/`next` move only the position, `key` reports it, and `valid` holds exactly when a non-null value sits there |
| Response.CountTracksEntries | src/Response.php:22-25 | `count()` grows by one on an append or a new key, stays the same on an overwrite, and drops by one when a present key is unset |
| Response.OffsetSet | src/Response.php:62-69 | a null offset appends under the next free integer key; any other offset writes only the key it addresses, a string spelling an integer addressing that integer key; nothing but the data changes |
| Response.StringOffsetIsInteger | src/Response.php:52-74 | writing, unsetting and testing through the offset `'5'` act on the integer key 5, exactly as through the offset 5 |
| Response.OffsetUnset | src/Response.php:71-74 | the key the offset addresses (after PHP's string-to-integer normalisation) is gone and every other key reads as before |
| Response.OffsetExistsAfterWrites | src/Response.php:52-55 | `offsetExists` holds after a write exactly when the value is non-null, fails after an unset, and every existing offset reads the same value through `__get` under its text |
| Response.MagicGet | src/Response.php:76-79 | `__get` returns the value under the name (as an integer key when the name spells one), or null |
| Response.Iterate | src/Response.php:27-50 | `foreach` yields positions 0, 1, 2, … with the value at each position, and stops at the first position without a non-null value; over a list it yields every value in order |
| Response.Serialize | src/Response.php:96-104 | the serialised form holds exactly the four properties under their names |
| Response.ArrayProperty | src/Response.php:106-112 | an array-typed property is read only from an array value, and raises otherwise |
| Response.StringProperty | src/Response.php:109 | a string property reads back a stored string, and raises on a missing key |
| Response.Unserialize | src/Response.php:106-112 | a missing `data` raises, and a restored response starts at position 0 |
| Response.SerializeRoundTrip | src/Response.php:96-112 | unserialising a serialised response restores data, table name, expansions and extensions exactly |
| CanvasConfig.Defaults | src/CanvasConfig.php:98-109 | the seven defaults come from the environment, with auto-refresh defaulting to true and the token endpoint fixed at `/login/oauth2/token` |
| CanvasConfig.CallerOverridesDefaults | src/CanvasConfig.php:9-12 | a setting the caller gives wins, and a setting the caller omits keeps its default |
| CanvasConfig.StringSetting | src/CanvasConfig.php:25-52 | a missing or null setting reads as `''`, a string reads as itself, and an array raises a TypeError |
| CanvasConfig.StringSettingDefault | src/CanvasConfig.php:25-52 | domain, client id, secret and refresh token read as `''` when neither caller nor environment gives them |
| CanvasConfig.GetAccessToken | src/CanvasConfig.php:57-60 | a missing or null access token reads as null, and a string reads as itself |
| CanvasConfig.AccessTokenDefault | src/CanvasConfig.php:57-60 | with neither caller nor environment giving it, the access token is null |
| CanvasConfig.IsAutoRefreshEnabled | src/CanvasConfig.php:65-68 | auto-refresh is true when missing, and otherwise the setting's truthiness |
| CanvasConfig.AutoRefreshDefault | src/CanvasConfig.php:65-68 | auto-refresh is on unless the caller or the environment says otherwise |
| CanvasConfig.GetTokenEndpoint | src/CanvasConfig.php:73-76 | the token endpoint is `/login/oauth2/token` when missing, and otherwise the configured string |
| CanvasConfig.TokenEndpointDefault | src/CanvasConfig.php:73-76 | the token endpoint is the OAuth default unless the caller sets one |
| CanvasConfig.CreateRequestChoice | src/CanvasConfig.php:81-93 | `CreateRequest`: the auto-refresh construction is chosen exactly when auto-refresh is on and the refresh token is truthy, with the configured settings; otherwise a plain-token request gets the access token, and a null token raises |
| CanvasConfig.ToArrayRoundTrip | src/CanvasConfig.php:114-117 | a configuration rebuilt from its own `toArray()` holds the same settings |
| CanvasConfig.DefaultKeys | src/CanvasConfig.php:11 | every default key survives the merge |
| PageSizeRule.QueryOfUrl | tests/pagination.php:54-61 | a URL `base?query` has exactly that query, and a URL without `?` has none |
| PageSizeRule.PreservePageSizeCases | tests/pagination.php:55-67 | `PreservePageSize`: the prior page size is added when the URL lacks one; the URL's own value is kept when present; nothing is added without a prior value; the URL's other variables are unchanged; a URL with no query gives at most the prior page size |
| PageSizeRule.PaginationTestCase | tests/pagination.php:48-89 | with `type` and `per_page=5` set, a next-page URL `?page=2&other_param=value` keeps `per_page` = 5, reads `page` = `2` and `other_param` = `value`, and drops `type` |
| QueryStrings.ParseBuiltQuery | src/RequestBuilder.php:256-263 | the `key=value&…` text built from unambiguous variables parses back to the same variables, as strings, in order |
| QueryStrings.ParseStrStrings | tests/pagination.php:60 | `parse_str` yields a well-formed array whose values are all strings |
| PhpArrays.Set | src/RequestBuilder.php:161 | `$a[$k] = $v` writes only `k`, keeps an existing key's position, appends a new key, and keeps the array well formed |
| PhpArrays.MergeStringKey | src/CanvasConfig.php:11 | in `array_merge` a string key takes the later array's value when it has one, and the earlier array's otherwise |
| PhpArrays.MergeLists | src/Paginator.php:155 | `array_merge` of two lists is the list of their concatenation |

## Left out

- HTTP transport is left out. Guzzle, the token endpoint POST and the page requests become parameters: the grant outcome, a `Transport` function, and a map from URL to page.
- The JSON decoding of the grant response is left out. The fields are assumed to have the types section 5.1 of RFC 6749 gives them (string token, integer `expires_in`).
- The whole of `src/Request.php` is left out. That includes its 401 retry and `makeRequest`'s decoding. A JSON response (`returnResponse`) is modelled only as the TypeError the Response constructor raises on it.
- `Request::withAutoRefresh` is not part of this model, because it does not appear in `src/Request.php`. `createRequest` records which construction it chooses, with its arguments.
- The Laravel cache is a plain map. TTL expiry is not modelled, because a record's TTL is stored as a number and nothing reads it back. The md5 cache-key digest is a function parameter.
- There is one `now` per operation. `refreshAccessToken` reads `time()` twice (expiry and TTL), and the model uses the same instant for both.
- Logging, `Debug.php` and `ray` have no effect on the state.
- `getRefreshToken()`, `getExpiresAt()`, `hasMorePages()`, `getCurrentResponse()` and `getCurrentPage()` are read as the fields they return.
- `getPaginationLinks()` is left out, because it calls a Response method that does not exist.
- The Link-header accessors and `requestPaginationUrl` are not part of this model, since neither is defined in the sources. Each page carries its links instead, and following a link is a lookup in the server map.
- Pages reached through links are not requested through the builder, so a link request does not change the builder. This is the part of `requestPaginationUrl` that the test's per_page rule describes, and `PageSizeRule` models that rule on its own.
- Paginator.All: requires a finite chain of next links. A server whose links form a cycle would make `all()` loop for ever, which the model does not cover.
- `setData`, `withData`, `with` and `setDataItem` are left out. They call `castToValuesString`, which the class does not define, so the value they would store is unknown. The `data` field is still read by the JSON body logic.
- The undeclared `table` and `id` properties read by `buildRequestJson` are always null in the model, as PHP reads an undeclared property.
- Array offsets are modelled as integers and strings; the bool, float and null offsets PHP also converts to keys are not.
- `offsetGet` (Laravel `Arr::get` dot paths), `toJson`, `collect` and `fromLaravelConfig` are library calls and are left out.
- `getRequest` returns the builder's Request object, which is left out with `src/Request.php`.
- `env()` values arrive already typed. Laravel's conversion of `"true"`/`"false"`/`"null"` strings is not modelled.
- `parse_str` is modelled only for text that needs no URL-decoding and has no `[]` names. It does not model URL-decoding of `+` and `%`, nor the renaming of `.` and space in names to `_`; the read-back lemmas exclude such text through `QueryStrings.SafePair`. `parse_url` is reduced to "after the first `?`, before the first `#`".
- Floating-point values and objects in arrays are left out.
- The PHP 8.3 rule for the next free key after a negative key is left out. The model uses the earlier rule, where the next free key never drops below 0.
- `CanvasApiException` is a data holder and is left out.
- RequestBuilder.Send: a `send` that raises does not reset the builder, even when `$reset` is true. This follows the code, which resets only after the request returns.
- RequestBuilder.PageSize: the page-size variable is `pagesize`, as the builder writes it. The test at `tests/pagination.php` checks `per_page`, which is why `PageSizeRule` takes the variable name as a parameter.
- Response.StringProperty: states only the string and missing-key cases. Integers and booleans are converted, as in PHP's coercive typing, and arrays raise.
- CanvasConfig.IsAutoRefreshEnabled: states nothing about an array setting, which raises a TypeError in the model.

## Findings

| source | as written | input that shows it | evidently intended | confidence | as-written member | corrected member |
|---|---|---|---|---|---|---|
| src/RequestBuilder.php:136-146 | the text branch parses into `$this->queryString`, then line 144 assigns the raw string to the `array`-typed property, which raises a TypeError; a caller that catches it keeps a builder holding the parsed variables | `withQueryString('q=x')` | the parsed variables (`q` = `x`) become the query string | high, not executed | RequestBuilder.WithQueryStringAsWritten, RequestBuilder.QueryTextRejected | RequestBuilder.WithQueryStringIntended, RequestBuilder.QueryTextAdopted |

=== FILE: base.dfy ===
/** Optional values and results, standing for PHP's nullable values and thrown exceptions. */
module Base {

  /** A PHP value that may be null. */
  datatype Option<+T> = None | Some(value: T) {

    /** The held value, or `default` when there is none (PHP's `??`). */
    function GetOr(default: T): T {
      match this
      case Some(v) => v
      case None => default
    }
  }

  /** The outcome of an operation that may throw: a value, or the exception it raises. */
  datatype Result<+T, +E> = Success(value: T) | Failure(error: E) {

    predicate IsFailure() {
      Failure?
    }

    function PropagateFailure<U>(): Result<U, E>
      requires Failure?
    {
      Failure(error)
    }

    function Extract(): T
      requires Success?
    {
      value
    }
  }
}

=== FILE: canvas_config.dfy ===
/** The client configuration of src/CanvasConfig.php: caller settings merged over
    environment-backed defaults, typed getters with fall-backs, and the choice between
    an auto-refreshing and a plain-token request. The environment is a parameter. */
module CanvasConfig {
  import opened Base
  import opened PhpArrays
  import opened PhpValues

  /** Environment variables as `env()` returns them. */
  type Env = map<string, Value>

  const DefaultTokenEndpoint: string := "/login/oauth2/token"

  /** The configuration keys, in the order of the defaults. */
  const DomainKey: string := "domain"
  const ClientIdKey: string := "client_id"
  const ClientSecretKey: string := "client_secret"
  const RefreshTokenKey: string := "refresh_token"
  const AccessTokenKey: string := "access_token"
  const AutoRefreshKey: string := "auto_refresh"
  const TokenEndpointKey: string := "token_endpoint"

  datatype Config = Config(config: PhpArray<Value>)

  /** A getter whose declared return type the stored value does not fit. */
  datatype ConfigError = TypeError(key: string)

  /** How `createRequest` builds the Request: through the auto-refresh factory with the
      OAuth client settings, or directly with a fixed token. */
  datatype RequestPlan =
    | AutoRefresh(domain: string, clientId: string, clientSecret: string, refreshToken: string)
    | PlainToken(domain: string, token: string)

  /** `env($name, $default)` */
  function EnvOr(env: Env, name: string, default: Value): Value {
    if name in env then env[name] else default
  }

  /** `getDefaultConfig()` */
  function Defaults(env: Env): (d: PhpArray<Value>)
    ensures Wf(d) && |d.entries| == 7
    ensures Get(d, StrKey(DomainKey)) == Some(EnvOr(env, "CANVAS_DOMAIN", Null))
    ensures Get(d, StrKey(ClientIdKey)) == Some(EnvOr(env, "CANVAS_CLIENT_ID", Null))
    ensures Get(d, StrKey(ClientSecretKey)) == Some(EnvOr(env, "CANVAS_CLIENT_SECRET", Null))
    ensures Get(d, StrKey(RefreshTokenKey)) == Some(EnvOr(env, "CANVAS_REFRESH_TOKEN", Null))
    ensures Get(d, StrKey(AccessTokenKey)) == Some(EnvOr(env, "CANVAS_ACCESS_TOKEN", Null))
    ensures Get(d, StrKey(AutoRefreshKey)) == Some(EnvOr(env, "CANVAS_AUTO_REFRESH", Bool(true)))
    ensures Get(d, StrKey(TokenEndpointKey)) == Some(Str(DefaultTokenEndpoint))
  {
    var d := PhpArray([
      (StrKey(DomainKey), EnvOr(env, "CANVAS_DOMAIN", Null)),
      (StrKey(ClientIdKey), EnvOr(env, "CANVAS_CLIENT_ID", Null)),
      (StrKey(ClientSecretKey), EnvOr(env, "CANVAS_CLIENT_SECRET", Null)),
      (StrKey(RefreshTokenKey), EnvOr(env, "CANVAS_REFRESH_TOKEN", Null)),
      (StrKey(AccessTokenKey), EnvOr(env, "CANVAS_ACCESS_TOKEN", Null)),
      (StrKey(AutoRefreshKey), EnvOr(env, "CANVAS_AUTO_REFRESH", Bool(true))),
      (StrKey(TokenEndpointKey), Str(DefaultTokenEndpoint))], 0);
    assert DistinctKeys(d.entries);
    assert d.entries[1].0 == StrKey(ClientIdKey) && d.entries[2].0 == StrKey(ClientSecretKey);
    assert d.entries[3].0 == StrKey(RefreshTokenKey) && d.entries[4].0 == StrKey(AccessTokenKey);
    assert d.entries[5].0 == StrKey(AutoRefreshKey) && d.entries[6].0 == StrKey(TokenEndpointKey);
    d
  }

  /** `new CanvasConfig($config)`: `array_merge($defaults, $config)`. */
  function New(env: Env, config: PhpArray<Value>): (c: Config)
    ensures Wf(c.config)
  {
    Config(Merge(Defaults(env), config))
  }

  /** A caller's setting wins; a setting the caller leaves out keeps its default. */
  lemma CallerOverridesDefaults(env: Env, config: PhpArray<Value>, name: string)
    requires Wf(config)
    ensures HasKey(config, StrKey(name)) ==> Get(New(env, config).config, StrKey(name)) == Get(config, StrKey(name))
    ensures !HasKey(config, StrKey(name)) ==>
              Get(New(env, config).config, StrKey(name)) == Get(Defaults(env), StrKey(name))
  {
    MergeStringKey(Defaults(env), config, name);
  }

  /** `$this->config[$key] ?? $default` */
  function Setting(c: Config, key: string, default: Value): (v: Value)
    ensures !v.Null? || default.Null?
  {
    Coalesce(c.config, StrKey(key), default)
  }

  /** A getter declared to return `string`, with `''` as fall-back. */
  function StringSetting(c: Config, key: string): (r: Result<string, ConfigError>)
    ensures !IsSet(c.config, StrKey(key)) ==> r == Success("")
    ensures IsSet(c.config, StrKey(key)) && Get(c.config, StrKey(key)).value.Str? ==>
              r == Success(Get(c.config, StrKey(key)).value.s)
    ensures IsSet(c.config, StrKey(key)) && Get(c.config, StrKey(key)).value.Arr? ==> r == Failure(TypeError(key))
  {
    match CoerceToString(Setting(c, key, Str("")))
    case Some(s) => Success(s)
    case None => Failure(TypeError(key))
  }

  /** `getDomain()`, `getClientId()`, `getClientSecret()`, `getRefreshToken()` */
  function GetDomain(c: Config): Result<string, ConfigError> { StringSetting(c, DomainKey) }
  function GetClientId(c: Config): Result<string, ConfigError> { StringSetting(c, ClientIdKey) }
  function GetClientSecret(c: Config): Result<string, ConfigError> { StringSetting(c, ClientSecretKey) }
  function GetRefreshToken(c: Config): Result<string, ConfigError> { StringSetting(c, RefreshTokenKey) }

  /** `getAccessToken()`: declared `?string`, null when missing. */
  function GetAccessToken(c: Config): (r: Result<Option<string>, ConfigError>)
    ensures !IsSet(c.config, StrKey(AccessTokenKey)) ==> r == Success(None)
    ensures IsSet(c.config, StrKey(AccessTokenKey)) && Get(c.config, StrKey(AccessTokenKey)).value.Str? ==>
              r == Success(Some(Get(c.config, StrKey(AccessTokenKey)).value.s))
  {
    var v := Setting(c, AccessTokenKey, Null);
    if v.Null? then Success(None)
    else match CoerceToString(v)
      case Some(s) => Success(Some(s))
      case None => Failure(TypeError(AccessTokenKey))
  }

  /** `isAutoRefreshEnabled()`: declared `bool`, true when missing. */
  function IsAutoRefreshEnabled(c: Config): (r: Result<bool, ConfigError>)
    ensures !IsSet(c.config, StrKey(AutoRefreshKey)) ==> r == Success(true)
    ensures IsSet(c.config, StrKey(AutoRefreshKey)) && !Get(c.config, StrKey(AutoRefreshKey)).value.Arr? ==>
              r == Success(Truthy(Get(c.config, StrKey(AutoRefreshKey)).value))
  {
    match CoerceToBool(Setting(c, AutoRefreshKey, Bool(true)))
    case Some(b) => Success(b)
    case None => Failure(TypeError(AutoRefreshKey))
  }

  /** `getTokenEndpoint()` */
  function GetTokenEndpoint(c: Config): (r: Result<string, ConfigError>)
    ensures !IsSet(c.config, StrKey(TokenEndpointKey)) ==> r == Success(DefaultTokenEndpoint)
    ensures IsSet(c.config, StrKey(TokenEndpointKey)) && Get(c.config, StrKey(TokenEndpointKey)).value.Str? ==>
              r == Success(Get(c.config, StrKey(TokenEndpointKey)).value.s)
  {
    match CoerceToString(Setting(c, TokenEndpointKey, Str(DefaultTokenEndpoint)))
    case Some(s) => Success(s)
    case None => Failure(TypeError(TokenEndpointKey))
  }

  /** Auto-refresh is on unless the caller or the environment says otherwise. */
  lemma AutoRefreshDefault(env: Env, config: PhpArray<Value>)
    requires Wf(config) && !HasKey(config, StrKey(AutoRefreshKey)) && "CANVAS_AUTO_REFRESH" !in env
    ensures IsAutoRefreshEnabled(New(env, config)) == Success(true)
  {
    CallerOverridesDefaults(env, config, AutoRefreshKey);
  }

  /** The token endpoint is the OAuth default unless the caller sets one. */
  lemma TokenEndpointDefault(env: Env, config: PhpArray<Value>)
    requires Wf(config) && !HasKey(config, StrKey(TokenEndpointKey))
    ensures GetTokenEndpoint(New(env, config)) == Success(DefaultTokenEndpoint)
  {
    CallerOverridesDefaults(env, config, TokenEndpointKey);
  }

  /** A string setting neither the caller nor the environment gives reads as ''. */
  lemma StringSettingDefault(env: Env, config: PhpArray<Value>, key: string, variable: string)
    requires (key, variable) in {(DomainKey, "CANVAS_DOMAIN"), (ClientIdKey, "CANVAS_CLIENT_ID"),
                                 (ClientSecretKey, "CANVAS_CLIENT_SECRET"), (RefreshTokenKey, "CANVAS_REFRESH_TOKEN")}
    requires Wf(config) && !HasKey(config, StrKey(key)) && variable !in env
    ensures StringSetting(New(env, config), key) == Success("")
  {
    CallerOverridesDefaults(env, config, key);
  }

  /** The access token neither the caller nor the environment gives reads as null. */
  lemma AccessTokenDefault(env: Env, config: PhpArray<Value>)
    requires Wf(config) && !HasKey(config, StrKey(AccessTokenKey)) && "CANVAS_ACCESS_TOKEN" !in env
    ensures GetAccessToken(New(env, config)) == Success(None)
  {
    CallerOverridesDefaults(env, config, AccessTokenKey);
  }

  /** `createRequest()`: auto-refresh when it is enabled and the refresh token is truthy
      (the refresh token is read only when auto-refresh is on); otherwise a plain-token
      Request, whose constructor refuses a null token. Getters are called in source order,
      so the first one to fail decides the error. */
  function CreateRequest(c: Config): (r: Result<RequestPlan, ConfigError>)
  {
    var useRefresh :- UsesRefreshToken(c);
    if useRefresh then
      var domain :- GetDomain(c);
      var clientId :- GetClientId(c);
      var secret :- GetClientSecret(c);
      var rt :- GetRefreshToken(c);
      Success(AutoRefresh(domain, clientId, secret, rt))
    else
      var domain :- GetDomain(c);
      var token :- GetAccessToken(c);
      if token.None? then Failure(TypeError(AccessTokenKey))
      else Success(PlainToken(domain, token.value))
  }

  /** `$this->isAutoRefreshEnabled() && $this->getRefreshToken()` */
  function UsesRefreshToken(c: Config): Result<bool, ConfigError> {
    var auto :- IsAutoRefreshEnabled(c);
    if !auto then Success(false)
    else
      var rt :- GetRefreshToken(c);
      Success(StringTruthy(rt))
  }

  /** The auto-refresh construction is chosen exactly when auto-refresh is enabled and the
      refresh token is non-empty (and not "0"), and it carries the configured settings;
      otherwise the plain construction carries the access token. */
  lemma CreateRequestChoice(c: Config)
    requires GetDomain(c).Success? && GetClientId(c).Success? && GetClientSecret(c).Success?
    requires GetRefreshToken(c).Success? && IsAutoRefreshEnabled(c).Success?
    requires GetAccessToken(c).Success?
    ensures var auto := IsAutoRefreshEnabled(c).value && StringTruthy(GetRefreshToken(c).value);
            var r := CreateRequest(c);
            && (auto ==> r == Success(AutoRefresh(GetDomain(c).value, GetClientId(c).value,
                                                  GetClientSecret(c).value, GetRefreshToken(c).value)))
            && (!auto && GetAccessToken(c).value.Some? ==>
                  r == Success(PlainToken(GetDomain(c).value, GetAccessToken(c).value.value)))
            && (!auto && GetAccessToken(c).value.None? ==> r == Failure(TypeError(AccessTokenKey)))
  {
  }

  /** `toArray()`: the merged configuration, so a setting given by the caller reads back. */
  function ToArray(c: Config): PhpArray<Value> {
    c.config
  }

  /** A configuration rebuilt from its own array holds the same settings. */
  lemma ToArrayRoundTrip(env: Env, config: PhpArray<Value>, name: string)
    requires Wf(config)
    ensures Get(New(env, ToArray(New(env, config))).config, StrKey(name)) == Get(New(env, config).config, StrKey(name))
  {
    var c := New(env, config);
    CallerOverridesDefaults(env, ToArray(c), name);
    CallerOverridesDefaults(env, config, name);
    DefaultKeys(env, config, name);
  }

  /** Every default key survives the merge. */
  lemma DefaultKeys(env: Env, config: PhpArray<Value>, name: string)
    requires Wf(config)
    ensures HasKey(Defaults(env), StrKey(name)) ==> HasKey(New(env, config).config, StrKey(name))
  {
    MergeStringKey(Defaults(env), config, name);
  }
}

=== FILE: decimal.dfy ===
/** Decimal text of integers, as PHP prints them and as it recognises integer-like strings. */
module Decimal {
  import opened Base

  predicate IsDigit(c: char) {
    '0' <= c <= '9'
  }

  function DigitValue(c: char): nat
    requires IsDigit(c)
  {
    (c as int) - ('0' as int)
  }

  function DigitChar(d: nat): (c: char)
    requires d < 10
    ensures IsDigit(c) && DigitValue(c) == d
  {
    (('0' as int) + d) as char
  }

  predicate AllDigits(s: string) {
    forall i :: 0 <= i < |s| ==> IsDigit(s[i])
  }

  /** The number a string of digits denotes, most significant digit first. */
  function DigitsValue(s: string): nat
    requires AllDigits(s)
    decreases |s|
  {
    if |s| == 0 then 0 else 10 * DigitsValue(s[..|s| - 1]) + DigitValue(s[|s| - 1])
  }

  /** Decimal text of a natural number, without leading zeros. */
  function NatToString(n: nat): (s: string)
    ensures |s| >= 1 && AllDigits(s)
    ensures DigitsValue(s) == n
    ensures s[0] == '0' <==> n == 0
    ensures n == 0 ==> s == "0"
    decreases n
  {
    if n < 10 then [DigitChar(n)]
    else
      var prefix := NatToString(n / 10);
      var s := prefix + [DigitChar(n % 10)];
      assert s[..|s| - 1] == prefix;
      s
  }

  /** Decimal text of an integer, with a leading `-` when negative (PHP's int to string). */
  function IntToString(i: int): (s: string)
    ensures |s| >= 1
  {
    if i < 0 then "-" + NatToString(-i) else NatToString(i)
  }

  /** The integer a string spells in canonical decimal form (no sign `+`, no leading
      zeros, no `-0`), the form PHP accepts as an integer array key. */
  function ParseInt(s: string): (r: Option<int>)
    ensures r.Some? ==> IntToString(r.value) == s
  {
    if |s| == 0 then None
    else if s[0] == '-' then
      if |s| >= 2 && AllDigits(s[1..]) && s[1] != '0' then
        CanonicalDigits(s[1..]);
        assert s == "-" + s[1..];
        var v: int := -(DigitsValue(s[1..]) as int);
        Some(v)
      else None
    else if AllDigits(s) && (s[0] != '0' || |s| == 1) then
      CanonicalDigits(s);
      Some(DigitsValue(s))
    else None
  }

  lemma {:induction false} LeadingDigitPositive(s: string)
    requires |s| >= 1 && AllDigits(s) && s[0] != '0'
    ensures DigitsValue(s) >= 1
    decreases |s|
  {
    if |s| > 1 {
      LeadingDigitPositive(s[..|s| - 1]);
    } else {
      assert s[..0] == [];
    }
  }

  /** A canonical digit string is the decimal text of its own value. */
  lemma {:induction false} CanonicalDigits(s: string)
    requires |s| >= 1 && AllDigits(s) && (s[0] != '0' || |s| == 1)
    ensures NatToString(DigitsValue(s)) == s
    decreases |s|
  {
    var prefix := s[..|s| - 1];
    var last := s[|s| - 1];
    if |s| == 1 {
      assert prefix == [];
      assert DigitsValue(s) == DigitValue(last);
      assert [DigitChar(DigitValue(last))] == [last];
    } else {
      CanonicalDigits(prefix);
      LeadingDigitPositive(prefix);
      var v := DigitsValue(s);
      assert v == 10 * DigitsValue(prefix) + DigitValue(last);
      assert v / 10 == DigitsValue(prefix) && v % 10 == DigitValue(last);
      assert DigitChar(DigitValue(last)) == last;
      assert s == prefix + [last];
    }
  }

  /** Printing an integer and reading the text back yields the integer. */
  lemma ParseIntToString(i: int)
    ensures ParseInt(IntToString(i)) == Some(i)
  {
    if i < 0 {
      var t := NatToString(-i);
      var s := "-" + t;
      assert s[1..] == t;
    }
  }
}

=== FILE: page_size_rule.dfy ===
/** The page-size preservation rule of tests/pagination.php: when a pagination URL is
    followed, its query string is parsed, and the page size set earlier on the builder
    is added back if the URL does not carry one. The page-size variable's name is a
    parameter (the builder writes `pagesize`, the test checks `per_page`). */
module PageSizeRule {
  import opened Base
  import opened PhpArrays
  import opened PhpValues
  import opened QueryStrings

  /** `parse_url($url)['query']`: the text after the first `?` that comes before any `#`. */
  function QueryOf(url: string): (q: Option<string>)
    ensures q.Some? ==> '#' !in q.value
  {
    var beforeFragment := if '#' in url then url[..IndexOf(url, '#')] else url;
    if '?' in beforeFragment then Some(beforeFragment[IndexOf(beforeFragment, '?') + 1..]) else None
  }

  /** A URL built as `base?query` has exactly that query, and one without `?` has none. */
  lemma QueryOfUrl(base: string, query: string)
    requires '?' !in base && '#' !in base && '#' !in query
    ensures QueryOf(base + "?" + query) == Some(query)
    ensures QueryOf(base) == None
  {
    IndexOfAfter(base, '?', query);
    var url := base + "?" + query;
    assert url[|base| + 1..] == query;
  }

  /** The query variables after following `url`, given the builder's variables `prior`:
      the URL's own variables, plus the prior page size when it had one and the URL
      does not. */
  function PreservePageSize(prior: PhpArray<Value>, url: string, key: string): (r: PhpArray<Value>)
  {
    var k := NormalizeKey(key);
    var original := Coalesce(prior, k, Null);
    var parsed := Parsed(url);
    if !original.Null? && !IsSet(parsed, k) then Set(parsed, k, original) else parsed
  }

  /** The URL's own variables, as `parse_str` reads its query. */
  function Parsed(url: string): (p: PhpArray<Value>)
    ensures Wf(p) && AllStrings(p)
  {
    if QueryOf(url).Some? then
      ParseStrStrings(QueryOf(url).value);
      ParseStr(QueryOf(url).value)
    else Empty()
  }

  /** The five cases of the rule:
      the prior page size is added when the URL lacks one;
      the URL's page size is kept when it has one;
      nothing is added without a prior page size;
      the URL's other variables are unchanged;
      a URL without a query gives at most the prior page size. */
  lemma PreservePageSizeCases(prior: PhpArray<Value>, url: string, key: string)
    ensures var k := NormalizeKey(key);
            var r := PreservePageSize(prior, url, key);
            && (IsSet(prior, k) && !HasKey(Parsed(url), k) ==> Get(r, k) == Get(prior, k))
            && (HasKey(Parsed(url), k) ==> r == Parsed(url))
            && (!IsSet(prior, k) ==> r == Parsed(url))
            && (forall k' :: k' != k ==> Get(r, k') == Get(Parsed(url), k'))
            && (QueryOf(url).None? ==>
                  && (IsSet(prior, k) ==> r.entries == [(k, Get(prior, k).value)])
                  && (!IsSet(prior, k) ==> r.entries == []))
  {
    var k := NormalizeKey(key);
    var parsed := Parsed(url);
    if QueryOf(url).None? && IsSet(prior, k) {
      SetNewKey(parsed, k, Get(prior, k).value);
    }
  }

  /** The test's own case: the builder holds `type` and `per_page=5`, and the next-page URL
      (any address without `?` or `#`, followed by `?page=2&other_param=value`) leaves out
      the page size. */
  lemma PaginationTestCase(base: string)
    requires '?' !in base && '#' !in base
    ensures var prior := PhpArray([(StrKey("type"), Str("StudentEnrollment")), (StrKey("per_page"), Int(5))], 0);
            var r := PreservePageSize(prior, base + "?page=2&other_param=value", "per_page");
            && Get(r, StrKey("per_page")) == Some(Int(5))
            && Get(r, StrKey("page")) == Some(Str("2"))
            && Get(r, StrKey("other_param")) == Some(Str("value"))
            && !HasKey(r, StrKey("type"))
  {
    var prior := PhpArray([(StrKey("type"), Str("StudentEnrollment")), (StrKey("per_page"), Int(5))], 0);
    TestUrlParses(base);
    TestPrior(prior);
    TestKeyIsName("per_page");
    TestPageSizeAdded(Parsed(base + "?page=2&other_param=value"));
  }

  lemma TestKeyIsName(name: string)
    requires name in {"per_page", "page", "other_param"}
    ensures NormalizeKey(name) == StrKey(name)
  {
  }

  lemma TestPrior(prior: PhpArray<Value>)
    requires prior == PhpArray([(StrKey("type"), Str("StudentEnrollment")), (StrKey("per_page"), Int(5))], 0)
    ensures Coalesce(prior, StrKey("per_page"), Null) == Int(5)
  {
    assert Find(prior.entries, StrKey("per_page")) == Some(1);
  }

  lemma TestUrlParses(base: string)
    requires '?' !in base && '#' !in base
    ensures Parsed(base + "?page=2&other_param=value").entries
            == [(StrKey("page"), Str("2")), (StrKey("other_param"), Str("value"))]
  {
    var query := "page=2&other_param=value";
    assert base + "?page=2&other_param=value" == base + "?" + query;
    QueryOfUrl(base, query);
    TestQueryParses(PhpArray([(StrKey("page"), Str("2")), (StrKey("other_param"), Str("value"))], 0), query);
  }

  lemma TestPageSizeAdded(parsed: PhpArray<Value>)
    requires parsed.entries == [(StrKey("page"), Str("2")), (StrKey("other_param"), Str("value"))]
    ensures !IsSet(parsed, StrKey("per_page"))
    ensures var r := Set(parsed, StrKey("per_page"), Int(5));
            && Get(r, StrKey("per_page")) == Some(Int(5))
            && Get(r, StrKey("page")) == Some(Str("2"))
            && Get(r, StrKey("other_param")) == Some(Str("value"))
            && !HasKey(r, StrKey("type"))
  {
    assert parsed.entries[0].0 != StrKey("per_page");
    assert parsed.entries[1].0 != StrKey("per_page");
    assert !HasKey(parsed, StrKey("per_page"));
    SetNewKey(parsed, StrKey("per_page"), Int(5));
    TestResultLookups(Set(parsed, StrKey("per_page"), Int(5)));
  }

  lemma TestResultLookups(r: PhpArray<Value>)
    requires r.entries == [(StrKey("page"), Str("2")), (StrKey("other_param"), Str("value")), (StrKey("per_page"), Int(5))]
    ensures Get(r, StrKey("per_page")) == Some(Int(5))
    ensures Get(r, StrKey("page")) == Some(Str("2"))
    ensures Get(r, StrKey("other_param")) == Some(Str("value"))
    ensures !HasKey(r, StrKey("type"))
  {
    assert DistinctKeys(r.entries);
    assert r.entries[2].0 == StrKey("per_page");
    assert r.entries[1].0 == StrKey("other_param");
    assert r.entries[0].0 == StrKey("page");
  }

  lemma TestQueryParses(q: PhpArray<Value>, query: string)
    requires q == PhpArray([(StrKey("page"), Str("2")), (StrKey("other_param"), Str("value"))], 0)
    requires query == "page=2&other_param=value"
    ensures ParseStr(query).entries == q.entries
  {
    TestQueryBuilt(q);
    ParseBuiltQuery(q);
  }

  lemma TestQueryBuilt(q: PhpArray<Value>)
    requires q == PhpArray([(StrKey("page"), Str("2")), (StrKey("other_param"), Str("value"))], 0)
    ensures Unambiguous(q) && AsStrings(q.entries) == q.entries
    ensures BuildQuery(q) == "page=2&other_param=value"
  {
    TestPairSafe(q.entries[0]);
    TestPairSafe(q.entries[1]);
    assert AsStrings(q.entries)[0] == q.entries[0];
    assert AsStrings(q.entries)[1] == q.entries[1];
    TestQueryText(q);
  }

  lemma TestPairSafe(e: (Key, Value))
    requires e in {(StrKey("page"), Str("2")), (StrKey("other_param"), Str("value"))}
    ensures SafePair(e)
  {
    TestKeyIsName(e.0.s);
    PlainText(e.0.s);
    PlainText(e.1.s);
  }

  /** Lower-case letters, digits and `_` need no decoding and no renaming. */
  lemma PlainText(t: string)
    requires forall i :: 0 <= i < |t| ==> 'a' <= t[i] <= 'z' || '0' <= t[i] <= '9' || t[i] == '_'
    ensures '&' !in t && '=' !in t && '+' !in t && '%' !in t && '.' !in t && ' ' !in t && '[' !in t
  {
  }

  lemma TestQueryText(q: PhpArray<Value>)
    requires q == PhpArray([(StrKey("page"), Str("2")), (StrKey("other_param"), Str("value"))], 0)
    ensures BuildQuery(q) == "page=2&other_param=value"
  {
  }
}

=== FILE: paginator.dfy ===
/** The forward pagination cursor of src/Paginator.php, driven by the next, prev, first
    and last links each page carries (Canvas sends them in the Link header). The server
    is a finite map from URL to page; a URL it lacks is a failed request. */
module Paginator {
  import opened Base
  import opened PhpArrays
  import opened PhpValues

  type Url = string

  /** The links the Response accessors `getNextPageUrl`, `getPreviousPageUrl`,
      `getFirstPageUrl` and `getLastPageUrl` return (null when absent). */
  datatype Links = Links(next: Option<Url>, prev: Option<Url>, first: Option<Url>, last: Option<Url>)

  /** A fetched page: its decoded body and its links. */
  datatype Page = Page(body: PhpArray<Value>, links: Links)

  type Server = map<Url, Page>

  datatype PageError = PageNotFound(url: Url)

  /** The paginator's fields, less the builder it drives. */
  datatype Cursor = Cursor(
    pageSize: int,
    current: Option<Page>,
    hasMorePages: bool,
    isFirstRequest: bool,
    currentPage: int)

  /** The cursor after an operation, its result (a page, or null), and the URLs it requested,
      in order. */
  datatype Step = Step(cursor: Cursor, result: Result<Option<Page>, PageError>, fetched: seq<Url>)

  /** `hasNextPage()` / `hasPreviousPage()` */
  predicate HasNext(p: Page) { p.links.next.Some? }
  predicate HasPrev(p: Page) { p.links.prev.Some? }

  /** A link URL used as a condition (`!$response->getFirstPageUrl()`): present and truthy. */
  predicate LinkTruthy(u: Option<Url>) {
    u.Some? && StringTruthy(u.value)
  }

  /** One request to the server. */
  function Fetch(server: Server, url: Url): (r: Result<Page, PageError>)
    ensures r.Success? <==> url in server
    ensures r.Success? ==> r.value == server[url]
  {
    if url in server then Success(server[url]) else Failure(PageNotFound(url))
  }

  /** `new Paginator($builder, $pageSize)`; the page-size query variable it sets on the
      builder is part of the builder's model. */
  function New(pageSize: int): (c: Cursor)
    ensures c.current.None? && c.hasMorePages && c.isFirstRequest && c.currentPage == 0
    ensures c.pageSize == pageSize
  {
    Cursor(pageSize, None, true, true, 0)
  }

  /** `reset()` */
  function Reset(c: Cursor): (r: Cursor)
    ensures r == New(c.pageSize)
  {
    c.(current := None, hasMorePages := true, isFirstRequest := true, currentPage := 0)
  }

  /** Resetting twice is resetting once, and a reset cursor is a new one. */
  lemma ResetIdempotent(c: Cursor)
    ensures Reset(Reset(c)) == Reset(c)
    ensures Reset(New(c.pageSize)) == New(c.pageSize)
  {
  }

  /** The cursor after a page has been received. */
  function Arrived(c: Cursor, p: Page, currentPage: int): (r: Cursor)
    ensures r.current == Some(p) && r.hasMorePages == HasNext(p) && !r.isFirstRequest
    ensures r.currentPage == currentPage && r.pageSize == c.pageSize
  {
    c.(current := Some(p), hasMorePages := HasNext(p), isFirstRequest := false, currentPage := currentPage)
  }

  /** `page()` (and its alias `next()`): the first call fetches `start`, the URL of the
      builder's own GET request; later calls follow the current page's next link. */
  function NextPage(c: Cursor, server: Server, start: Url): (s: Step)
    ensures !c.hasMorePages ==> s == Step(c, Success(None), [])
    ensures s.result.Failure? ==> s.cursor == c && |s.fetched| == 1 && s.fetched[0] !in server
    ensures s.fetched != [] ==>
              && c.hasMorePages
              && (c.isFirstRequest ==> s.fetched == [start])
              && (!c.isFirstRequest ==> c.current.Some? && HasNext(c.current.value) && s.fetched == [c.current.value.links.next.value])
    ensures s.result.Success? && s.result.value.Some? ==>
              var p := s.result.value.value;
              && s.cursor.current == Some(p) && s.cursor.hasMorePages == HasNext(p)
              && !s.cursor.isFirstRequest && |s.fetched| == 1 && s.fetched[0] in server
              && p == server[s.fetched[0]]
    ensures s.result.Success? && s.result.value.None? ==> !s.cursor.hasMorePages && s.fetched == []
    ensures s.cursor.pageSize == c.pageSize
  {
    if !c.hasMorePages then
      Step(c, Success(None), [])
    else if c.isFirstRequest then
      match Fetch(server, start)
      case Failure(e) => Step(c, Failure(e), [start])
      case Success(p) => Step(Arrived(c, p, 1), Success(Some(p)), [start])
    else if c.current.None? || !HasNext(c.current.value) then
      Step(c.(hasMorePages := false), Success(None), [])
    else
      var url := c.current.value.links.next.value;
      match Fetch(server, url)
      case Failure(e) => Step(c, Failure(e), [url])
      case Success(p) => Step(Arrived(c, p, c.currentPage + 1), Success(Some(p)), [url])
  }

  /** The first `page()` after a reset fetches the start URL and numbers it page 1. */
  lemma FirstPage(c: Cursor, server: Server, start: Url)
    requires start in server
    ensures var s := NextPage(Reset(c), server, start);
            && s.result == Success(Some(server[start]))
            && s.fetched == [start]
            && s.cursor.currentPage == 1
            && s.cursor.hasMorePages == HasNext(server[start])
  {
  }

  /** A later `page()` follows the next link and counts one page further; without a next
      link it answers null, sends nothing, and every call after it does the same. */
  lemma LaterPage(c: Cursor, server: Server, start: Url)
    requires c.hasMorePages && !c.isFirstRequest
    ensures var s := NextPage(c, server, start);
            && (c.current.Some? && HasNext(c.current.value) && c.current.value.links.next.value in server ==>
                  && s.fetched == [c.current.value.links.next.value]
                  && s.result == Success(Some(server[c.current.value.links.next.value]))
                  && s.cursor.currentPage == c.currentPage + 1)
            && (c.current.None? || !HasNext(c.current.value) ==>
                  && s.result == Success(None) && s.fetched == []
                  && NextPage(s.cursor, server, start) == Step(s.cursor, Success(None), []))
  {
  }

  /** `previous()` */
  function Previous(c: Cursor, server: Server): (s: Step)
    ensures c.current.None? || !HasPrev(c.current.value) ==> s == Step(c, Success(None), [])
    ensures c.current.Some? && HasPrev(c.current.value) ==>
              var url := c.current.value.links.prev.value;
              && s.fetched == [url]
              && (s.result.Success? <==> url in server)
              && (s.result.Success? ==> s.result.value == Some(server[url]))
    ensures s.cursor.hasMorePages == c.hasMorePages && s.cursor.isFirstRequest == c.isFirstRequest
    ensures s.result.Success? && s.result.value.Some? ==>
              && s.cursor.current == s.result.value
              && s.cursor.currentPage == (if c.currentPage > 1 then c.currentPage - 1 else c.currentPage)
              && s.fetched == [c.current.value.links.prev.value]
    ensures s.result.Failure? ==> s.cursor == c
  {
    if c.current.None? || !HasPrev(c.current.value) then
      Step(c, Success(None), [])
    else
      var url := c.current.value.links.prev.value;
      match Fetch(server, url)
      case Failure(e) => Step(c, Failure(e), [url])
      case Success(p) =>
        var n := if c.currentPage > 1 then c.currentPage - 1 else c.currentPage;
        Step(c.(current := Some(p), currentPage := n), Success(Some(p)), [url])
  }

  /** Going back never numbers a page below 1, and a cursor that started at page 0 stays 0. */
  lemma PreviousPageNumber(c: Cursor, server: Server)
    requires c.currentPage >= 0
    ensures var s := Previous(c, server);
            && s.cursor.currentPage >= 0
            && s.cursor.currentPage <= c.currentPage
            && (c.currentPage >= 1 ==> s.cursor.currentPage >= 1)
  {
  }

  /** `first()`: follow the first link when there is one; otherwise reset and take the
      first page again. */
  function First(c: Cursor, server: Server, start: Url): (s: Step)
    ensures c.current.None? || !LinkTruthy(c.current.value.links.first) ==> s == NextPage(Reset(c), server, start)
    ensures c.current.Some? && LinkTruthy(c.current.value.links.first) ==>
              var url := c.current.value.links.first.value;
              && s.fetched == [url]
              && (s.result.Success? <==> url in server)
              && (s.result.Success? ==> s.result.value == Some(server[url]))
              && (s.result.Failure? ==> s.cursor == c)
              && (s.result.Success? ==>
                    && s.result.value.Some?
                    && s.cursor == Arrived(c, s.result.value.value, 1).(isFirstRequest := c.isFirstRequest))
  {
    if c.current.None? || !LinkTruthy(c.current.value.links.first) then
      NextPage(Reset(c), server, start)
    else
      var url := c.current.value.links.first.value;
      match Fetch(server, url)
      case Failure(e) => Step(c, Failure(e), [url])
      case Success(p) =>
        Step(c.(current := Some(p), hasMorePages := HasNext(p), currentPage := 1), Success(Some(p)), [url])
  }

  /** After a successful `first()` the cursor is on page 1 and has more pages exactly when
      that page links onward. */
  lemma FirstLandsOnPageOne(c: Cursor, server: Server, start: Url)
    requires First(c, server, start).result.Success?
    requires First(c, server, start).result.value.Some?
    ensures var s := First(c, server, start);
            && s.cursor.currentPage == 1
            && s.cursor.hasMorePages == HasNext(s.result.value.value)
  {
  }

  /** `last()` */
  function Last(c: Cursor, server: Server): (s: Step)
    ensures c.current.None? || !LinkTruthy(c.current.value.links.last) ==> s == Step(c, Success(None), [])
    ensures c.current.Some? && LinkTruthy(c.current.value.links.last) ==>
              var url := c.current.value.links.last.value;
              && s.fetched == [url]
              && (s.result.Success? <==> url in server)
              && (s.result.Failure? ==> s.cursor == c)
              && (s.result.Success? ==> s.result.value == Some(server[url]))
    ensures s.cursor.currentPage == c.currentPage && s.cursor.isFirstRequest == c.isFirstRequest
    ensures s.result.Success? && s.result.value.Some? ==>
              !s.cursor.hasMorePages && s.cursor.current == s.result.value
              && s.fetched == [c.current.value.links.last.value]
  {
    if c.current.None? || !LinkTruthy(c.current.value.links.last) then
      Step(c, Success(None), [])
    else
      var url := c.current.value.links.last.value;
      match Fetch(server, url)
      case Failure(e) => Step(c, Failure(e), [url])
      case Success(p) => Step(c.(current := Some(p), hasMorePages := false), Success(Some(p)), [url])
  }

  /** After `last()` has answered, `page()` answers null and sends nothing, even when the
      last page itself links onward. */
  lemma LastEndsPaging(c: Cursor, server: Server, start: Url)
    requires Last(c, server).result.Success? && Last(c, server).result.value.Some?
    ensures var s := Last(c, server);
            NextPage(s.cursor, server, start) == Step(s.cursor, Success(None), [])
  {
  }

  /** `goToUrl($url)`: the page number becomes unknown (0). */
  function GoToUrl(c: Cursor, server: Server, url: Url): (s: Step)
    ensures s.fetched == [url]
    ensures url in server ==>
              && s.result == Success(Some(server[url]))
              && s.cursor.current == Some(server[url])
              && s.cursor.hasMorePages == server[url].links.next.Some?
              && !s.cursor.isFirstRequest && s.cursor.currentPage == 0
              && s.cursor.pageSize == c.pageSize
    ensures url !in server ==> s.result.Failure? && s.cursor == c
  {
    match Fetch(server, url)
    case Failure(e) => Step(c, Failure(e), [url])
    case Success(p) => Step(Arrived(c, p, 0), Success(Some(p)), [url])
  }

  /** `walk` is the chain of next links from `start`: every page but the last links to the
      following URL, and the chain ends at a page without a next link or at a URL the
      server does not have. */
  ghost predicate Walk(server: Server, start: Url, walk: seq<Url>) {
    && |walk| > 0 && walk[0] == start
    && (forall i :: 0 <= i < |walk| - 1 ==> walk[i] in server && server[walk[i]].links.next == Some(walk[i + 1]))
    && (walk[|walk| - 1] in server ==> server[walk[|walk| - 1]].links.next.None?)
  }

  /** The bodies of the pages at `urls`, merged in order with array_merge. */
  ghost function Gather(server: Server, urls: seq<Url>): PhpArray<Value>
    requires forall i :: 0 <= i < |urls| ==> urls[i] in server
  {
    if |urls| == 0 then Empty() else Merge(Gather(server, urls[..|urls| - 1]), server[urls[|urls| - 1]].body)
  }

  /** `all()`: reset, then take pages until `page()` answers null, merging each body into
      the result. It sends one request per page of the chain, in order. */
  method All(c: Cursor, server: Server, start: Url, ghost walk: seq<Url>)
    returns (c': Cursor, result: Result<PhpArray<Value>, PageError>, fetched: seq<Url>)
    requires Walk(server, start, walk)
    ensures fetched == walk
    ensures walk[|walk| - 1] in server <==> result.Success?
    ensures result.Success? ==>
              && result.value == Gather(server, walk)
              && !c'.hasMorePages && c'.currentPage == |walk|
              && c'.current == Some(server[walk[|walk| - 1]])
    ensures result.Failure? ==> result.error == PageNotFound(walk[|walk| - 1])
  {
    c' := Reset(c);
    var acc := Empty<Value>();
    fetched := [];
    while true
      invariant |fetched| <= |walk| && fetched == walk[..|fetched|]
      invariant OnWalk(c, c', server, walk, |fetched|)
      invariant acc == Gather(server, fetched)
      decreases |walk| - |fetched|
    {
      var s := NextPage(c', server, start);
      if s.result.Failure? {
        WalkFails(c, c', server, start, walk, |fetched|);
        assert walk[..|walk| - 1] + [walk[|walk| - 1]] == walk;
        fetched := fetched + s.fetched;
        c' := s.cursor;
        result := Failure(s.result.error);
        return;
      }
      if s.result.value.None? {
        WalkEnds(c, c', server, start, walk, |fetched|);
        assert walk[..|walk|] == walk;
        c' := s.cursor;
        result := Success(acc);
        return;
      }
      WalkAdvances(c, c', server, start, walk, |fetched|);
      assert walk[..|fetched| + 1] == fetched + s.fetched;
      assert (fetched + s.fetched)[..|fetched|] == fetched;
      fetched := fetched + s.fetched;
      acc := Merge(acc, s.result.value.value.body);
      c' := s.cursor;
    }
  }

  /** The state of `all()` after the first n pages of a walk, starting from cursor c0. */
  ghost predicate OnWalk(c0: Cursor, c: Cursor, server: Server, walk: seq<Url>, n: nat) {
    && n <= |walk|
    && (forall i :: 0 <= i < n ==> walk[i] in server)
    && (n == 0 ==> c == Reset(c0))
    && (n > 0 ==>
          && c.current == Some(server[walk[n - 1]]) && !c.isFirstRequest
          && c.hasMorePages == HasNext(server[walk[n - 1]]) && c.currentPage == n)
  }

  /** Every page of a walk but the last links to the next URL of the walk. */
  lemma WalkLink(server: Server, start: Url, walk: seq<Url>, k: nat)
    requires Walk(server, start, walk)
    ensures k < |walk| - 1 ==> walk[k] in server && server[walk[k]].links.next == Some(walk[k + 1])
  {
  }

  /** `page()` on a cursor standing on page n of a walk requests the walk's next URL, if any. */
  lemma WalkNextUrl(c0: Cursor, c: Cursor, server: Server, start: Url, walk: seq<Url>, n: nat)
    requires Walk(server, start, walk) && OnWalk(c0, c, server, walk, n)
    requires NextPage(c, server, start).fetched != []
    ensures n < |walk| && NextPage(c, server, start).fetched == [walk[n]]
  {
    if n > 0 {
      WalkLink(server, start, walk, n - 1);
    }
  }

  /** A page received during the walk is the walk's next page, one further on. */
  lemma WalkAdvances(c0: Cursor, c: Cursor, server: Server, start: Url, walk: seq<Url>, n: nat)
    requires Walk(server, start, walk) && OnWalk(c0, c, server, walk, n)
    requires NextPage(c, server, start).result.Success? && NextPage(c, server, start).result.value.Some?
    ensures var s := NextPage(c, server, start);
            && n < |walk| && s.fetched == [walk[n]]
            && s.result.value.value == server[walk[n]]
            && OnWalk(c0, s.cursor, server, walk, n + 1)
  {
    WalkNextUrl(c0, c, server, start, walk, n);
  }

  /** A failed request during the walk is for its last URL, which the server lacks. */
  lemma WalkFails(c0: Cursor, c: Cursor, server: Server, start: Url, walk: seq<Url>, n: nat)
    requires Walk(server, start, walk) && OnWalk(c0, c, server, walk, n)
    requires NextPage(c, server, start).result.Failure?
    ensures n == |walk| - 1 && walk[n] !in server
    ensures NextPage(c, server, start).fetched == [walk[n]]
    ensures NextPage(c, server, start).result.error == PageNotFound(walk[n])
  {
    WalkNextUrl(c0, c, server, start, walk, n);
    WalkLink(server, start, walk, n);
  }

  /** When `page()` answers null during the walk, the whole walk has been fetched. */
  lemma WalkEnds(c0: Cursor, c: Cursor, server: Server, start: Url, walk: seq<Url>, n: nat)
    requires Walk(server, start, walk) && OnWalk(c0, c, server, walk, n)
    requires NextPage(c, server, start).result == Success(None)
    ensures n == |walk| && n > 0
    ensures var c' := NextPage(c, server, start).cursor;
            c'.current == c.current && c'.currentPage == c.currentPage && !c'.hasMorePages
  {
    WalkLink(server, start, walk, n - 1);
  }

  /** When every page holds a list, `all()` returns the list of all items, page by page. */
  lemma {:induction false} GatherLists(server: Server, urls: seq<Url>, items: seq<seq<Value>>)
    requires |items| == |urls|
    requires forall i :: 0 <= i < |urls| ==> urls[i] in server && server[urls[i]].body == ListArray(items[i])
    ensures Gather(server, urls) == ListArray(Flatten(items))
  {
    if |urls| == 0 {
      assert Empty<Value>() == ListArray([]);
    } else {
      var n := |urls| - 1;
      ListPagesPrefix(server, urls, items, n);
      GatherLists(server, urls[..n], items[..n]);
      GatherListsStep(server, urls, items);
    }
  }

  lemma GatherListsStep(server: Server, urls: seq<Url>, items: seq<seq<Value>>)
    requires 0 < |items| == |urls|
    requires forall i :: 0 <= i < |urls| ==> urls[i] in server
    requires server[urls[|urls| - 1]].body == ListArray(items[|urls| - 1])
    requires Gather(server, urls[..|urls| - 1]) == ListArray(Flatten(items[..|urls| - 1]))
    ensures Gather(server, urls) == ListArray(Flatten(items))
  {
    var n := |urls| - 1;
    FlattenLast(items);
    GatherSnoc(server, urls, Flatten(items[..n]), items[n]);
  }

  lemma ListPagesPrefix(server: Server, urls: seq<Url>, items: seq<seq<Value>>, n: nat)
    requires n <= |items| == |urls|
    requires forall i :: 0 <= i < |urls| ==> urls[i] in server && server[urls[i]].body == ListArray(items[i])
    ensures forall i :: 0 <= i < n ==> urls[..n][i] in server && server[urls[..n][i]].body == ListArray(items[..n][i])
  {
  }

  /** The last page's list goes after the lists gathered before it. */
  lemma GatherSnoc(server: Server, urls: seq<Url>, before: seq<Value>, last: seq<Value>)
    requires |urls| > 0 && forall i :: 0 <= i < |urls| ==> urls[i] in server
    requires Gather(server, urls[..|urls| - 1]) == ListArray(before)
    requires server[urls[|urls| - 1]].body == ListArray(last)
    ensures Gather(server, urls) == ListArray(before + last)
  {
    MergeLists(before, last);
  }

  /** Concatenation of a sequence of sequences. */
  function Flatten<T>(xss: seq<seq<T>>): seq<T> {
    if |xss| == 0 then [] else xss[0] + Flatten(xss[1..])
  }

  lemma FlattenLast<T>(xss: seq<seq<T>>)
    requires |xss| > 0
    ensures Flatten(xss) == Flatten(xss[..|xss| - 1]) + xss[|xss| - 1]
  {
    var n := |xss| - 1;
    assert xss[..n] + [xss[n]] == xss;
    FlattenSnoc(xss[..n], xss[n]);
  }

  lemma {:induction false} FlattenSnoc<T>(xss: seq<seq<T>>, xs: seq<T>)
    ensures Flatten(xss + [xs]) == Flatten(xss) + xs
  {
    if |xss| == 0 {
      assert xss + [xs] == [xs];
    } else {
      assert (xss + [xs])[1..] == xss[1..] + [xs];
      FlattenSnoc(xss[1..], xs);
    }
  }
}

=== FILE: php_arrays.dfy ===
/** PHP's ordered arrays: entries kept in insertion order under unique keys, together
    with the counter PHP keeps for the key the next `$a[] = v` receives. */
module PhpArrays {
  import opened Base
  import opened Decimal

  /** An array key: an integer, or a string that does not spell an integer. */
  datatype Key = IntKey(i: int) | StrKey(s: string)

  const MinInt: int := -0x8000_0000_0000_0000
  const MaxInt: int := 0x7FFF_FFFF_FFFF_FFFF

  /** The text of a key, as `$key . ''` prints it. */
  function RenderKey(k: Key): string {
    match k
    case IntKey(i) => IntToString(i)
    case StrKey(s) => s
  }

  /** The key a string offset addresses: a canonical decimal integer within PHP's
      64-bit range addresses an integer key; every other string is a string key. */
  function NormalizeKey(s: string): (k: Key)
    ensures RenderKey(k) == s
    ensures k.IntKey? ==> MinInt <= k.i <= MaxInt
  {
    match ParseInt(s)
    case Some(i) => if MinInt <= i <= MaxInt then IntKey(i) else StrKey(s)
    case None => StrKey(s)
  }

  /** A key as PHP stores it: integer keys in range, string keys that do not
      normalise to an integer. */
  predicate ProperKey(k: Key) {
    match k
    case IntKey(i) => MinInt <= i <= MaxInt
    case StrKey(s) => NormalizeKey(s) == StrKey(s)
  }

  /** Normalisation yields stored keys, and a stored key is recovered from its text. */
  lemma NormalizeRenderedKey(k: Key)
    requires ProperKey(k)
    ensures NormalizeKey(RenderKey(k)) == k
  {
    if k.IntKey? {
      ParseIntToString(k.i);
    }
  }

  lemma NormalizedKeyIsProper(s: string)
    ensures ProperKey(NormalizeKey(s))
  {
  }

  datatype PhpArray<V> = PhpArray(entries: seq<(Key, V)>, nextFree: int)

  ghost predicate DistinctKeys<V>(es: seq<(Key, V)>) {
    forall i, j :: 0 <= i < j < |es| ==> es[i].0 != es[j].0
  }

  /** What every PHP array satisfies: unique keys, and a next-free counter that is
      non-negative and above every integer key. */
  ghost predicate Wf<V>(a: PhpArray<V>) {
    && DistinctKeys(a.entries)
    && a.nextFree >= 0
    && forall i :: 0 <= i < |a.entries| && a.entries[i].0.IntKey? ==> a.entries[i].0.i < a.nextFree
  }

  /** `[]` */
  function Empty<V>(): (a: PhpArray<V>)
    ensures Wf(a) && |a.entries| == 0
  {
    PhpArray([], 0)
  }

  /** The position of the first entry under key `k`. */
  function Find<V>(es: seq<(Key, V)>, k: Key): (r: Option<nat>)
    ensures r.Some? ==> r.value < |es| && es[r.value].0 == k
    ensures r.Some? ==> forall j :: 0 <= j < r.value ==> es[j].0 != k
    ensures r.None? <==> forall j :: 0 <= j < |es| ==> es[j].0 != k
    decreases |es|
  {
    if |es| == 0 then None
    else if es[0].0 == k then Some(0)
    else
      match Find(es[1..], k)
      case None => None
      case Some(i) => Some(i + 1)
  }

  predicate HasKey<V>(a: PhpArray<V>, k: Key) {
    Find(a.entries, k).Some?
  }

  /** `$a[$k]`, or None when the key is absent. */
  function Get<V>(a: PhpArray<V>, k: Key): (r: Option<V>)
    ensures r.Some? <==> HasKey(a, k)
    ensures r.Some? ==> exists i :: 0 <= i < |a.entries| && a.entries[i] == (k, r.value)
    ensures DistinctKeys(a.entries) ==>
              forall i :: 0 <= i < |a.entries| && a.entries[i].0 == k ==> r == Some(a.entries[i].1)
  {
    Lookup(a.entries, k)
  }

  /** Two entry lists with the same keys at the same positions locate every key alike. */
  lemma {:induction false} FindByKeys<V>(es: seq<(Key, V)>, fs: seq<(Key, V)>, k: Key)
    requires |es| == |fs|
    requires forall i :: 0 <= i < |es| ==> es[i].0 == fs[i].0
    ensures Find(es, k) == Find(fs, k)
    decreases |es|
  {
    if |es| > 0 && es[0].0 != k {
      FindByKeys(es[1..], fs[1..], k);
    }
  }

  /** An entry appended under a different key does not change where `k` is found. */
  lemma {:induction false} FindAppend<V>(es: seq<(Key, V)>, e: (Key, V), k: Key)
    requires e.0 != k
    ensures Find(es + [e], k) == Find(es, k)
    decreases |es|
  {
    if |es| > 0 && es[0].0 != k {
      assert (es + [e])[1..] == es[1..] + [e];
      FindAppend(es[1..], e, k);
    }
  }

  /** An entry appended under a key the list lacks is found at the end. */
  lemma {:induction false} FindAppendNew<V>(es: seq<(Key, V)>, e: (Key, V))
    requires Find(es, e.0).None?
    ensures Find(es + [e], e.0) == Some(|es|)
    decreases |es|
  {
    if |es| > 0 {
      assert (es + [e])[1..] == es[1..] + [e];
      FindAppendNew(es[1..], e);
    }
  }

  /** Dropping the first entry under `k`, keeping the others in order. */
  function RemoveFirst<V>(es: seq<(Key, V)>, k: Key): (rs: seq<(Key, V)>)
    ensures Find(es, k).None? ==> rs == es
    ensures Find(es, k).Some? ==>
              var i := Find(es, k).value;
              rs == es[..i] + es[i + 1..]
    ensures forall k' :: k' != k ==> Lookup(rs, k') == Lookup(es, k')
    decreases |es|
  {
    if |es| == 0 then es
    else if es[0].0 == k then es[1..]
    else
      var rest := RemoveFirst(es[1..], k);
      RemoveFirstStep(es, k, rest);
      [es[0]] + rest
  }

  /** One step of `RemoveFirst` past an entry under another key. */
  lemma RemoveFirstStep<V>(es: seq<(Key, V)>, k: Key, rest: seq<(Key, V)>)
    requires |es| > 0 && es[0].0 != k
    requires Find(es[1..], k).None? ==> rest == es[1..]
    requires Find(es[1..], k).Some? ==>
               var i := Find(es[1..], k).value;
               rest == es[1..][..i] + es[1..][i + 1..]
    requires forall k' :: k' != k ==> Lookup(rest, k') == Lookup(es[1..], k')
    ensures var rs := [es[0]] + rest;
            && (Find(es, k).None? ==> rs == es)
            && (Find(es, k).Some? ==>
                  var i := Find(es, k).value;
                  rs == es[..i] + es[i + 1..])
            && (forall k' :: k' != k ==> Lookup(rs, k') == Lookup(es, k'))
  {
    var rs := [es[0]] + rest;
    assert rs[1..] == rest;
    assert es == [es[0]] + es[1..];
    match Find(es[1..], k)
    case None =>
    case Some(j) =>
      assert Find(es, k) == Some(j + 1);
      assert es[..j + 1] == [es[0]] + es[1..][..j];
      assert es[j + 2..] == es[1..][j + 1..];
    forall k' | k' != k
      ensures Lookup(rs, k') == Lookup(es, k')
    {
      LookupCons(rs, k');
      LookupCons(es, k');
    }
  }

  lemma LookupCons<V>(es: seq<(Key, V)>, k: Key)
    requires |es| > 0
    ensures Lookup(es, k) == if es[0].0 == k then Some(es[0].1) else Lookup(es[1..], k)
  {
    if es[0].0 != k {
      match Find(es[1..], k)
      case Some(i) => assert es[1..][i] == es[i + 1];
      case None =>
    }
  }

  /** The value under the first entry with key `k`. */
  function Lookup<V>(es: seq<(Key, V)>, k: Key): (r: Option<V>)
    ensures r.Some? <==> Find(es, k).Some?
  {
    match Find(es, k)
    case Some(i) => Some(es[i].1)
    case None => None
  }

  /** `$a[$k] = $v`: an existing key keeps its position, a new key goes last. */
  function Set<V>(a: PhpArray<V>, k: Key, v: V): (r: PhpArray<V>)
    ensures |r.entries| == |a.entries| + (if HasKey(a, k) then 0 else 1)
    ensures forall i :: 0 <= i < |a.entries| ==> r.entries[i].0 == a.entries[i].0
    ensures forall i :: 0 <= i < |a.entries| && a.entries[i].0 != k ==> r.entries[i] == a.entries[i]
    ensures !HasKey(a, k) ==> r.entries[|a.entries|] == (k, v)
    ensures Get(r, k) == Some(v)
    ensures forall k' :: k' != k ==> Get(r, k') == Get(a, k')
    ensures r.nextFree == if k.IntKey? && k.i >= a.nextFree then k.i + 1 else a.nextFree
    ensures Wf(a) ==> Wf(r)
  {
    var next := if k.IntKey? && k.i >= a.nextFree then k.i + 1 else a.nextFree;
    match Find(a.entries, k)
    case Some(i) =>
      ReplaceFacts(a, i, k, v, next);
      PhpArray(a.entries[i := (k, v)], next)
    case None =>
      AppendFacts(a, k, v, next);
      PhpArray(a.entries + [(k, v)], next)
  }

  lemma ReplaceFacts<V>(a: PhpArray<V>, i: nat, k: Key, v: V, next: int)
    requires Find(a.entries, k) == Some(i)
    requires next == if k.IntKey? && k.i >= a.nextFree then k.i + 1 else a.nextFree
    ensures var es := a.entries[i := (k, v)];
            && (forall k' :: Find(es, k') == Find(a.entries, k'))
            && (Wf(a) ==> Wf(PhpArray(es, next)))
  {
    var es := a.entries[i := (k, v)];
    forall k' ensures Find(es, k') == Find(a.entries, k') {
      FindByKeys(es, a.entries, k');
    }
  }

  lemma AppendFacts<V>(a: PhpArray<V>, k: Key, v: V, next: int)
    requires Find(a.entries, k).None?
    requires next == if k.IntKey? && k.i >= a.nextFree then k.i + 1 else a.nextFree
    ensures var es := a.entries + [(k, v)];
            && (forall k' :: k' != k ==> Find(es, k') == Find(a.entries, k'))
            && Find(es, k) == Some(|a.entries|)
            && (Wf(a) ==> Wf(PhpArray(es, next)))
  {
    var es := a.entries + [(k, v)];
    forall k' | k' != k ensures Find(es, k') == Find(a.entries, k') {
      FindAppend(a.entries, (k, v), k');
    }
    FindAppendNew(a.entries, (k, v));
  }

  /** Setting a key the array lacks appends exactly one entry. */
  lemma SetNewKey<V>(a: PhpArray<V>, k: Key, v: V)
    requires !HasKey(a, k)
    ensures Set(a, k, v).entries == a.entries + [(k, v)]
  {
  }

  /** `unset($a[$k])`: the entry under `k` is dropped, the rest keep their order; the
      next-free counter is not lowered. */
  function Unset<V>(a: PhpArray<V>, k: Key): (r: PhpArray<V>)
    ensures !HasKey(a, k) ==> r == a
    ensures HasKey(a, k) ==>
              var i := Find(a.entries, k).value;
              r.entries == a.entries[..i] + a.entries[i + 1..]
    ensures r.nextFree == a.nextFree
    ensures DistinctKeys(a.entries) ==> !HasKey(r, k)
    ensures forall k' :: k' != k ==> Get(r, k') == Get(a, k')
    ensures Wf(a) ==> Wf(r)
  {
    var r := PhpArray(RemoveFirst(a.entries, k), a.nextFree);
    UnsetFacts(a, k);
    r
  }

  lemma UnsetFacts<V>(a: PhpArray<V>, k: Key)
    ensures DistinctKeys(a.entries) ==> Find(RemoveFirst(a.entries, k), k).None?
    ensures Wf(a) ==> Wf(PhpArray(RemoveFirst(a.entries, k), a.nextFree))
  {
    var es := a.entries;
    if Find(es, k).Some? {
      var i := Find(es, k).value;
      RemoveAtKeys(es, i);
    }
  }

  /** Each entry left after removing position `i` is an entry of the original list at
      the same or the next position. */
  lemma RemoveAtKeys<V>(es: seq<(Key, V)>, i: nat)
    requires i < |es|
    ensures var rs := es[..i] + es[i + 1..];
            && (forall j :: 0 <= j < i ==> rs[j] == es[j])
            && (forall j :: i <= j < |rs| ==> rs[j] == es[j + 1])
            && (DistinctKeys(es) ==> DistinctKeys(rs))
            && (DistinctKeys(es) ==> forall j :: 0 <= j < |rs| ==> rs[j].0 != es[i].0)
  {
    var rs := es[..i] + es[i + 1..];
    assert forall j :: 0 <= j < i ==> rs[j] == es[j];
    assert forall j :: i <= j < |rs| ==> rs[j] == es[j + 1];
    if DistinctKeys(es) {
      forall p, q | 0 <= p < q < |rs| ensures rs[p].0 != rs[q].0 {
        var p' := if p < i then p else p + 1;
        var q' := if q < i then q else q + 1;
        assert rs[p] == es[p'] && rs[q] == es[q'];
      }
      forall j | 0 <= j < |rs| ensures rs[j].0 != es[i].0 {
        var j' := if j < i then j else j + 1;
        assert rs[j] == es[j'];
      }
    }
  }

  /** Under the array invariant, the next-free key is never in use. */
  lemma NextFreeUnused<V>(a: PhpArray<V>)
    requires Wf(a)
    ensures !HasKey(a, IntKey(a.nextFree))
  {
  }

  /** `$a[] = $v`: appends under the next-free integer key. */
  function Push<V>(a: PhpArray<V>, v: V): (r: PhpArray<V>)
    ensures Wf(a) ==> r.entries == a.entries + [(IntKey(a.nextFree), v)]
    ensures Wf(a) ==> r.nextFree == a.nextFree + 1
    ensures Wf(a) ==> Wf(r)
  {
    PushAppends(a, v);
    Set(a, IntKey(a.nextFree), v)
  }

  lemma PushAppends<V>(a: PhpArray<V>, v: V)
    ensures Wf(a) ==> Set(a, IntKey(a.nextFree), v).entries == a.entries + [(IntKey(a.nextFree), v)]
  {
    if Wf(a) {
      NextFreeUnused(a);
      var r := Set(a, IntKey(a.nextFree), v);
      assert |r.entries| == |a.entries| + 1;
    }
  }

  /** A list: values under the keys 0, 1, 2, ... in order (a decoded JSON array). */
  function ListArray<V>(xs: seq<V>): (a: PhpArray<V>)
    ensures Wf(a) && |a.entries| == |xs| && a.nextFree == |xs|
    ensures forall i :: 0 <= i < |xs| ==> a.entries[i] == (IntKey(i), xs[i])
  {
    PhpArray(seq(|xs|, i requires 0 <= i < |xs| => (IntKey(i), xs[i])), |xs|)
  }

  function ValuesOf<V>(es: seq<(Key, V)>): (vs: seq<V>)
    ensures |vs| == |es| && forall i :: 0 <= i < |es| ==> vs[i] == es[i].1
  {
    seq(|es|, i requires 0 <= i < |es| => es[i].1)
  }

  /** The fold behind array_merge: integer keys are renumbered by appending,
      string keys overwrite in place or append. */
  function MergeEntries<V>(acc: PhpArray<V>, es: seq<(Key, V)>): (r: PhpArray<V>)
    ensures Wf(acc) ==> Wf(r)
    decreases |es|
  {
    if |es| == 0 then acc
    else
      var next := if es[0].0.IntKey? then Push(acc, es[0].1) else Set(acc, es[0].0, es[0].1);
      MergeEntries(next, es[1..])
  }

  /** `array_merge($a, $b)` */
  function Merge<V>(a: PhpArray<V>, b: PhpArray<V>): (r: PhpArray<V>)
    ensures Wf(r)
  {
    MergeEntries(MergeEntries(Empty(), a.entries), b.entries)
  }

  /** Merging looks a string key up in the merged entries first, and falls back to
      the accumulator only when they lack it. */
  lemma {:induction false} MergeEntriesStringKey<V>(acc: PhpArray<V>, es: seq<(Key, V)>, s: string)
    requires DistinctKeys(es)
    ensures Get(MergeEntries(acc, es), StrKey(s)) ==
              match Find(es, StrKey(s))
              case Some(i) => Some(es[i].1)
              case None => Get(acc, StrKey(s))
    decreases |es|
  {
    if |es| > 0 {
      var next := if es[0].0.IntKey? then Push(acc, es[0].1) else Set(acc, es[0].0, es[0].1);
      assert DistinctKeys(es[1..]);
      MergeEntriesStringKey(next, es[1..], s);
      if es[0].0 == StrKey(s) {
        assert Find(es[1..], StrKey(s)).None? by {
          forall j | 0 <= j < |es[1..]| ensures es[1..][j].0 != StrKey(s) {
            assert es[1..][j] == es[j + 1];
          }
        }
      } else {
        assert Get(next, StrKey(s)) == Get(acc, StrKey(s));
      }
    }
  }

  /** array_merge: a string key takes the second array's value when it has one and the
      first array's value otherwise. */
  lemma MergeStringKey<V>(a: PhpArray<V>, b: PhpArray<V>, s: string)
    requires Wf(a) && Wf(b)
    ensures Get(Merge(a, b), StrKey(s)) == if HasKey(b, StrKey(s)) then Get(b, StrKey(s)) else Get(a, StrKey(s))
  {
    MergeEntriesStringKey(Empty(), a.entries, s);
    MergeEntriesStringKey(MergeEntries(Empty(), a.entries), b.entries, s);
  }

  /** Appending the values of integer-keyed entries to a list extends the list. */
  lemma {:induction false} MergeEntriesIntoList<V>(zs: seq<V>, es: seq<(Key, V)>)
    requires forall i :: 0 <= i < |es| ==> es[i].0.IntKey?
    ensures MergeEntries(ListArray(zs), es) == ListArray(zs + ValuesOf(es))
    decreases |es|
  {
    if |es| == 0 {
      assert zs + ValuesOf(es) == zs;
    } else {
      var zs' := zs + [es[0].1];
      PushOntoList(zs, es[0].1);
      assert MergeEntries(ListArray(zs), es) == MergeEntries(ListArray(zs'), es[1..]);
      MergeEntriesIntoList(zs', es[1..]);
      ValuesOfCons(es);
      AppendAssoc(zs, [es[0].1], ValuesOf(es[1..]));
    }
  }

  lemma PushOntoList<V>(zs: seq<V>, v: V)
    ensures Push(ListArray(zs), v) == ListArray(zs + [v])
  {
  }

  lemma AppendAssoc<T>(a: seq<T>, b: seq<T>, c: seq<T>)
    ensures a + b + c == a + (b + c)
  {
  }

  lemma ValuesOfCons<V>(es: seq<(Key, V)>)
    requires |es| > 0
    ensures ValuesOf(es) == [es[0].1] + ValuesOf(es[1..])
  {
  }

  /** array_merge of two lists is the list of their concatenation. */
  lemma MergeLists<V>(xs: seq<V>, ys: seq<V>)
    ensures Merge(ListArray(xs), ListArray(ys)) == ListArray(xs + ys)
  {
    assert Empty<V>() == ListArray([]);
    MergeEntriesIntoList([], ListArray(xs).entries);
    assert [] + ValuesOf(ListArray(xs).entries) == xs;
    MergeEntriesIntoList(xs, ListArray(ys).entries);
    assert ValuesOf(ListArray(ys).entries) == ys;
  }
}

=== FILE: php_values.dfy ===
/** The PHP values the SDK moves around, with the conversions PHP applies to them. */
module PhpValues {
  import opened Base
  import opened Decimal
  import opened PhpArrays

  /** A PHP value: null, bool, int, string or array (floats and objects are not modelled). */
  datatype Value = Null | Bool(b: bool) | Int(i: int) | Str(s: string) | Arr(a: PhpArray<Value>)

  /** `(string) $v` as concatenation performs it: null and false print as "", true as
      "1", an array as "Array". */
  function ToPhpString(v: Value): string {
    match v
    case Null => ""
    case Bool(b) => if b then "1" else ""
    case Int(i) => IntToString(i)
    case Str(s) => s
    case Arr(_) => "Array"
  }

  /** The string a value becomes where a `string` type is declared (PHP's coercive typing
      mode): ints print in decimal, true as "1" and false as ""; null and arrays raise a
      TypeError, here None. */
  function CoerceToString(v: Value): (r: Option<string>)
    ensures r.Some? <==> v.Str? || v.Int? || v.Bool?
    ensures r.Some? ==> r.value == ToPhpString(v)
    ensures v.Str? ==> r == Some(v.s)
  {
    if v.Str? || v.Int? || v.Bool? then Some(ToPhpString(v)) else None
  }

  /** The bool a value becomes where a `bool` type is declared: scalars convert by their
      truth value; null and arrays raise a TypeError, here None. */
  function CoerceToBool(v: Value): (r: Option<bool>)
    ensures r.Some? <==> v.Str? || v.Int? || v.Bool?
    ensures r.Some? ==> (r.value <==> Truthy(v))
  {
    if v.Str? || v.Int? || v.Bool? then Some(Truthy(v)) else None
  }

  /** A string's truth value: every string but "" and "0" is true. */
  predicate StringTruthy(s: string) {
    s != "" && s != "0"
  }

  /** PHP's conversion to bool, as `if ($v)` and `!$v` apply it. */
  predicate Truthy(v: Value) {
    match v
    case Null => false
    case Bool(b) => b
    case Int(i) => i != 0
    case Str(s) => StringTruthy(s)
    case Arr(a) => |a.entries| > 0
  }

  /** `isset($a[$k])`: the key is present and its value is not null. */
  predicate IsSet(a: PhpArray<Value>, k: Key) {
    Get(a, k).Some? && !Get(a, k).value.Null?
  }

  /** `$a[$k] ?? $default` */
  function Coalesce(a: PhpArray<Value>, k: Key, default: Value): (r: Value)
    ensures IsSet(a, k) ==> Get(a, k) == Some(r)
    ensures !IsSet(a, k) ==> r == default
  {
    if IsSet(a, k) then Get(a, k).value else default
  }
}

=== FILE: query_strings.dfy ===
/** Query-string text: the `k=v&k=v` form the request builder writes, and the
    `parse_str` reading of it. */
module QueryStrings {
  import opened Base
  import opened PhpArrays
  import opened PhpValues

  /** The position of the first `c` in `s`. */
  function IndexOf(s: string, c: char): (i: nat)
    requires c in s
    ensures i < |s| && s[i] == c && c !in s[..i]
    decreases |s|
  {
    if s[0] == c then 0
    else
      var i := IndexOf(s[1..], c) + 1;
      assert s[..i] == [s[0]] + s[1..][..i - 1];
      i
  }

  /** `implode(sep, parts)` */
  function Join(parts: seq<string>, sep: char): string
    decreases |parts|
  {
    if |parts| == 0 then ""
    else if |parts| == 1 then parts[0]
    else parts[0] + [sep] + Join(parts[1..], sep)
  }

  /** `explode(sep, s)` */
  function Split(s: string, sep: char): (parts: seq<string>)
    ensures |parts| >= 1
    decreases |s|
  {
    if sep !in s then [s]
    else
      var i := IndexOf(s, sep);
      [s[..i]] + Split(s[i + 1..], sep)
  }

  /** In `p + [c] + t` with no `c` in `p`, the first `c` is the one after `p`. */
  lemma {:induction false} IndexOfAfter(p: string, c: char, t: string)
    requires c !in p
    ensures IndexOf(p + [c] + t, c) == |p|
    decreases |p|
  {
    if |p| > 0 {
      assert (p + [c] + t)[1..] == p[1..] + [c] + t;
      IndexOfAfter(p[1..], c, t);
    }
  }

  /** Splitting joined parts that do not contain the separator gives the parts back. */
  lemma {:induction false} SplitJoin(parts: seq<string>, sep: char)
    requires |parts| >= 1
    requires forall i :: 0 <= i < |parts| ==> sep !in parts[i]
    ensures Split(Join(parts, sep), sep) == parts
    decreases |parts|
  {
    if |parts| > 1 {
      var t := Join(parts[1..], sep);
      var s := parts[0] + [sep] + t;
      assert Join(parts, sep) == s;
      IndexOfAfter(parts[0], sep, t);
      assert s[..|parts[0]|] == parts[0];
      assert s[|parts[0]| + 1..] == t;
      assert Split(s, sep) == [parts[0]] + Split(t, sep);
      SplitJoin(parts[1..], sep);
      assert parts == [parts[0]] + parts[1..];
    }
  }

  /** One `key=value` piece, as the builder writes each query variable. */
  function PairText(e: (Key, Value)): string {
    RenderKey(e.0) + "=" + ToPhpString(e.1)
  }

  function PairTexts(es: seq<(Key, Value)>): (ts: seq<string>)
    ensures |ts| == |es| && forall i :: 0 <= i < |es| ==> ts[i] == PairText(es[i])
  {
    seq(|es|, i requires 0 <= i < |es| => PairText(es[i]))
  }

  /** The query text of the builder's variables: `key=value` pieces joined by `&` in
      insertion order, or "" when there are none. */
  function BuildQuery(q: PhpArray<Value>): (s: string)
    ensures s == "" <==> |q.entries| == 0
  {
    var qs := PairTexts(q.entries);
    if |qs| == 0 then ""
    else
      JoinNonEmpty(qs, '&');
      Join(qs, '&')
  }

  lemma {:induction false} JoinNonEmpty(parts: seq<string>, sep: char)
    requires |parts| >= 1 && parts[0] != ""
    ensures Join(parts, sep) != ""
  {
    if |parts| > 1 {
      assert Join(parts, sep)[0] == parts[0][0];
    }
  }

  /** Splits a `name=value` piece at its first `=`; without `=` the value is "". */
  function SplitPair(piece: string): (string, string) {
    if '=' in piece then
      var i := IndexOf(piece, '=');
      (piece[..i], piece[i + 1..])
    else (piece, "")
  }

  /** Stores each piece's value under its name, later pieces overwriting earlier ones
      in place; pieces with an empty name are skipped. */
  function ParsePieces(acc: PhpArray<Value>, pieces: seq<string>): PhpArray<Value>
    decreases |pieces|
  {
    if |pieces| == 0 then acc
    else
      var (name, value) := SplitPair(pieces[0]);
      var next := if name == "" then acc else Set(acc, NormalizeKey(name), Str(value));
      ParsePieces(next, pieces[1..])
  }

  /** `parse_str($s, $result)` on text that needs no URL-decoding and uses no `[]`
      names. */
  function ParseStr(s: string): PhpArray<Value> {
    ParsePieces(Empty(), Split(s, '&'))
  }

  /** Every value is a string (so none is null). */
  ghost predicate AllStrings(a: PhpArray<Value>) {
    forall k :: Get(a, k).Some? ==> Get(a, k).value.Str?
  }

  /** `parse_str` yields a well-formed array of strings. */
  lemma ParseStrStrings(s: string)
    ensures Wf(ParseStr(s)) && AllStrings(ParseStr(s))
  {
    ParsePiecesStrings(Empty(), Split(s, '&'));
  }

  lemma {:induction false} ParsePiecesStrings(acc: PhpArray<Value>, pieces: seq<string>)
    requires Wf(acc) && AllStrings(acc)
    ensures Wf(ParsePieces(acc, pieces)) && AllStrings(ParsePieces(acc, pieces))
    decreases |pieces|
  {
    if |pieces| > 0 {
      var (name, value) := SplitPair(pieces[0]);
      var next := if name == "" then acc else Set(acc, NormalizeKey(name), Str(value));
      ParsePiecesStrings(next, pieces[1..]);
    }
  }

  /** A query whose pieces read back unchanged: stored keys with non-empty text free
      of `&` and `=`, of the `+` and `%` that `parse_str` URL-decodes, and of the `.`,
      space and `[` it renames or reads as array syntax; values whose text is free of
      `&`, `+` and `%`. */
  ghost predicate Unambiguous(q: PhpArray<Value>) {
    && Wf(q)
    && forall i :: 0 <= i < |q.entries| ==> SafePair(q.entries[i])
  }

  ghost predicate SafePair(e: (Key, Value)) {
    && ProperKey(e.0)
    && RenderKey(e.0) != ""
    && '&' !in RenderKey(e.0)
    && '=' !in RenderKey(e.0)
    && '+' !in RenderKey(e.0) && '%' !in RenderKey(e.0)
    && '.' !in RenderKey(e.0) && ' ' !in RenderKey(e.0) && '[' !in RenderKey(e.0)
    && '&' !in ToPhpString(e.1)
    && '+' !in ToPhpString(e.1) && '%' !in ToPhpString(e.1)
  }

  /** Each value replaced by its text, as reading the query back sees it. */
  function AsStrings(es: seq<(Key, Value)>): (rs: seq<(Key, Value)>)
    ensures |rs| == |es|
    ensures forall i :: 0 <= i < |es| ==> rs[i] == (es[i].0, Str(ToPhpString(es[i].1)))
  {
    seq(|es|, i requires 0 <= i < |es| => (es[i].0, Str(ToPhpString(es[i].1))))
  }

  /** A written piece splits back into the key's text and the value's text. */
  lemma SplitPairText(e: (Key, Value))
    requires '=' !in RenderKey(e.0)
    ensures SplitPair(PairText(e)) == (RenderKey(e.0), ToPhpString(e.1))
  {
    var piece := PairText(e);
    IndexOfAfter(RenderKey(e.0), '=', ToPhpString(e.1));
    assert piece[..|RenderKey(e.0)|] == RenderKey(e.0);
    assert piece[|RenderKey(e.0)| + 1..] == ToPhpString(e.1);
  }

  lemma ParsePiecesStep(acc: PhpArray<Value>, pieces: seq<string>, name: string, value: string)
    requires |pieces| > 0 && SplitPair(pieces[0]) == (name, value) && name != ""
    ensures ParsePieces(acc, pieces) == ParsePieces(Set(acc, NormalizeKey(name), Str(value)), pieces[1..])
  {
  }

  /** Keys other than `k` that an array lacks are still lacking after setting `k`. */
  lemma StillLacking(acc: PhpArray<Value>, k: Key, value: Value, es: seq<(Key, Value)>)
    requires forall i :: 0 <= i < |es| ==> !HasKey(acc, es[i].0) && es[i].0 != k
    ensures forall i :: 0 <= i < |es| ==> !HasKey(Set(acc, k, value), es[i].0)
  {
    var next := Set(acc, k, value);
    forall i | 0 <= i < |es| ensures !HasKey(next, es[i].0) {
      assert Get(next, es[i].0) == Get(acc, es[i].0);
    }
  }

  lemma {:induction false} ParsePairTexts(acc: PhpArray<Value>, es: seq<(Key, Value)>)
    requires DistinctKeys(es)
    requires forall i :: 0 <= i < |es| ==> SafePair(es[i]) && !HasKey(acc, es[i].0)
    ensures ParsePieces(acc, PairTexts(es)).entries == acc.entries + AsStrings(es)
    decreases |es|
  {
    if |es| == 0 {
      assert AsStrings(es) == [];
      assert acc.entries + [] == acc.entries;
    } else {
      var next := Set(acc, es[0].0, Str(ToPhpString(es[0].1)));
      ParseStepFacts(acc, es);
      ParsePairTexts(next, es[1..]);
      AppendAssoc(acc.entries, [(es[0].0, Str(ToPhpString(es[0].1)))], AsStrings(es[1..]));
    }
  }

  /** One step of the induction: the first piece is stored by appending, the rest
      still meets the lemma's conditions. */
  lemma ParseStepFacts(acc: PhpArray<Value>, es: seq<(Key, Value)>)
    requires |es| > 0 && DistinctKeys(es)
    requires forall i :: 0 <= i < |es| ==> SafePair(es[i]) && !HasKey(acc, es[i].0)
    ensures var next := Set(acc, es[0].0, Str(ToPhpString(es[0].1)));
            && ParsePieces(acc, PairTexts(es)) == ParsePieces(next, PairTexts(es[1..]))
            && next.entries == acc.entries + [(es[0].0, Str(ToPhpString(es[0].1)))]
            && DistinctKeys(es[1..])
            && (forall i :: 0 <= i < |es[1..]| ==> SafePair(es[1..][i]) && !HasKey(next, es[1..][i].0))
            && AsStrings(es) == [(es[0].0, Str(ToPhpString(es[0].1)))] + AsStrings(es[1..])
  {
    FirstPieceStep(acc, es);
    SetNewKey(acc, es[0].0, Str(ToPhpString(es[0].1)));
    RestStillLacking(acc, es);
    AsStringsCons(es);
  }

  lemma AsStringsCons(es: seq<(Key, Value)>)
    requires |es| > 0
    ensures AsStrings(es) == [(es[0].0, Str(ToPhpString(es[0].1)))] + AsStrings(es[1..])
  {
  }

  /** Reading the first written piece stores its key with its value's text. */
  lemma FirstPieceStep(acc: PhpArray<Value>, es: seq<(Key, Value)>)
    requires |es| > 0 && SafePair(es[0])
    ensures ParsePieces(acc, PairTexts(es)) ==
              ParsePieces(Set(acc, es[0].0, Str(ToPhpString(es[0].1))), PairTexts(es[1..]))
  {
    var texts := PairTexts(es);
    SplitPairText(es[0]);
    NormalizeRenderedKey(es[0].0);
    ParsePiecesStep(acc, texts, RenderKey(es[0].0), ToPhpString(es[0].1));
    assert texts[1..] == PairTexts(es[1..]);
  }

  lemma RestStillLacking(acc: PhpArray<Value>, es: seq<(Key, Value)>)
    requires |es| > 0 && DistinctKeys(es)
    requires forall i :: 0 <= i < |es| ==> SafePair(es[i]) && !HasKey(acc, es[i].0)
    ensures DistinctKeys(es[1..])
    ensures forall i :: 0 <= i < |es[1..]| ==>
              SafePair(es[1..][i]) && !HasKey(Set(acc, es[0].0, Str(ToPhpString(es[0].1))), es[1..][i].0)
  {
    var rest := es[1..];
    assert forall i :: 0 <= i < |rest| ==> rest[i] == es[i + 1];
    StillLacking(acc, es[0].0, Str(ToPhpString(es[0].1)), rest);
  }

  /** Reading the builder's query text back with parse_str recovers every variable, in
      order, with its value as text. */
  lemma ParseBuiltQuery(q: PhpArray<Value>)
    requires Unambiguous(q)
    ensures ParseStr(BuildQuery(q)).entries == AsStrings(q.entries)
  {
    if |q.entries| == 0 {
      ParseEmpty();
    } else {
      NoSeparatorInPieces(q.entries);
      SplitJoin(PairTexts(q.entries), '&');
      ParsePairTexts(Empty(), q.entries);
    }
  }

  lemma ParseEmpty()
    ensures ParseStr("").entries == []
  {
    assert Split("", '&') == [""];
    assert SplitPair("") == ("", "");
  }

  lemma NoSeparatorInPieces(es: seq<(Key, Value)>)
    requires forall i :: 0 <= i < |es| ==> SafePair(es[i])
    ensures forall i :: 0 <= i < |PairTexts(es)| ==> '&' !in PairTexts(es)[i]
  {
    var texts := PairTexts(es);
    forall i | 0 <= i < |texts| ensures '&' !in texts[i] {
      assert texts[i] == RenderKey(es[i].0) + "=" + ToPhpString(es[i].1);
    }
  }
}

=== FILE: request_builder.dfy ===
/** The fluent request builder of src/RequestBuilder.php: endpoint and method, the ordered
    query-variable array, the request options (`json` body and `query` text) it assembles
    per method, `send` over an abstract transport, and `paginate` with its lazily created
    paginator. Each operation is a pure step from builder to builder. */
module RequestBuilder {
  import opened Base
  import opened PhpArrays
  import opened PhpValues
  import opened QueryStrings
  import Response
  import Paginator

  /** A nullable string property without a default: uninitialized until first assigned,
      null after `reset()`, or a string. */
  datatype Field = Uninitialized | Nulled | Assigned(value: string)

  datatype Builder = Builder(
    endpoint: Field,
    httpMethod: Field,
    options: PhpArray<Value>,
    data: Option<PhpArray<Value>>,
    queryString: PhpArray<Value>,
    asJsonResponse: bool,
    pageKey: string,
    paginator: Option<Paginator.Cursor>)

  /** What the builder's operations raise: reading a property before it is initialized,
      a null passed where a string is required (or a JSON response where the Response
      wants an array), a failed transport call, or a page the server does not have. */
  datatype BuilderError =
    | UninitializedProperty(name: string)
    | TypeError(what: string)
    | TransportFailure(message: string)
    | PageFailure(url: string)

  /** The arguments of `Request::makeRequest`. */
  datatype HttpRequest = HttpRequest(httpMethod: string, endpoint: string, options: PhpArray<Value>, returnResponse: bool)

  type Transport = HttpRequest -> Result<PhpArray<Value>, string>

  /** The builder after `send`, its result and the requests it made. */
  datatype Sent = Sent(builder: Builder, result: Result<Response.Envelope, BuilderError>, requests: seq<HttpRequest>)

  /** The builder after `paginate`, the page it answered (or null) and the URLs it fetched. */
  datatype Paged = Paged(builder: Builder, result: Result<Option<Paginator.Page>, BuilderError>, fetched: seq<string>)

  const MethodGet: string := "GET"
  const MethodPost: string := "POST"
  const MethodPut: string := "PUT"
  const MethodPatch: string := "PATCH"
  const MethodDelete: string := "DELETE"
  const DefaultPageKey: string := "per_page"
  /** The page size `paginate()` uses when none is given. */
  const DefaultPaginateSize: int := 100
  const CoursesEndpoint: string := "/api/v1/courses"
  const JsonKey: Key := StrKey("json")
  const QueryKey: Key := StrKey("query")

  /** A builder as the constructor leaves it. */
  function Fresh(): (b: Builder)
    ensures b.endpoint.Uninitialized? && b.httpMethod.Uninitialized? && b.paginator.None?
    ensures |b.options.entries| == 0 && |b.queryString.entries| == 0 && b.data.None?
    ensures !b.asJsonResponse && b.pageKey == DefaultPageKey
  {
    Builder(Uninitialized, Uninitialized, Empty(), None, Empty(), false, DefaultPageKey, None)
  }

  /** `reset()` */
  function Reset(b: Builder): (r: Builder)
    ensures r.endpoint == Nulled && r.httpMethod == Nulled && r.options == Empty() && r.data.None?
    ensures r.pageKey == DefaultPageKey && r.paginator.None?
    ensures r.queryString == b.queryString && r.asJsonResponse == b.asJsonResponse
  {
    b.(endpoint := Nulled, httpMethod := Nulled, options := Empty(), data := None,
       pageKey := DefaultPageKey, paginator := None)
  }

  /** `reset()` forgets everything but the query variables and the response flag: two
      builders reset alike exactly when those two agree. */
  lemma ResetKeepsExactly(b1: Builder, b2: Builder)
    ensures Reset(b1) == Reset(b2) <==>
              b1.queryString == b2.queryString && b1.asJsonResponse == b2.asJsonResponse
  {
  }

  /** `Str::afterLast($s, $c)`: the text after the last `c`, or all of `s` without one. */
  function AfterLast(s: string, c: char): (r: string)
    ensures |r| <= |s| && r == s[|s| - |r|..]
    ensures c !in r
    ensures c in s ==> |r| < |s| && s[|s| - |r| - 1] == c
    ensures c !in s ==> r == s
    decreases |s|
  {
    if |s| == 0 then s
    else if s[|s| - 1] == c then []
    else AfterLast(s[..|s| - 1], c) + [s[|s| - 1]]
  }

  /** `setEndpoint($endpoint)` and its aliases `toEndpoint`, `to` and `endpoint`. */
  function SetEndpoint(b: Builder, e: string): (r: Builder)
    ensures r.endpoint == Assigned(e) && r.pageKey == AfterLast(e, '/')
    ensures r == b.(endpoint := r.endpoint, pageKey := r.pageKey)
  {
    b.(endpoint := Assigned(e), pageKey := AfterLast(e, '/'))
  }

  /** The page key is the endpoint's last path segment: the whole endpoint without a
      slash, and empty for an endpoint ending in one. */
  lemma PageKeyOfEndpoint(b: Builder, e: string)
    ensures '/' !in e ==> SetEndpoint(b, e).pageKey == e
    ensures '/' in e ==> exists p :: e == p + "/" + SetEndpoint(b, e).pageKey
    ensures |e| > 0 && e[|e| - 1] == '/' ==> SetEndpoint(b, e).pageKey == ""
  {
    var k := SetEndpoint(b, e).pageKey;
    if '/' in e {
      var p := e[..|e| - |k| - 1];
      assert e == p + "/" + k;
    }
  }

  /** The courses endpoint pages under the key `courses`. */
  lemma CoursesPageKey(b: Builder)
    ensures SetEndpoint(b, "/api/v1/courses").pageKey == "courses"
  {
    AfterLastSegment("/api/v1", '/', "courses");
    assert "/api/v1" + "/" + "courses" == "/api/v1/courses";
  }

  /** The text after the last separator is the final segment. */
  lemma {:induction false} AfterLastSegment(p: string, c: char, t: string)
    requires c !in t
    ensures AfterLast(p + [c] + t, c) == t
    decreases |t|
  {
    var s := p + [c] + t;
    if |t| > 0 {
      var n := |t| - 1;
      assert s[..|s| - 1] == p + [c] + t[..n];
      AfterLastSegment(p, c, t[..n]);
      assert t[..n] + [t[n]] == t;
    }
  }

  /** `getCourses()`: the courses endpoint with GET; unlike `setEndpoint` it leaves the
      page key alone. */
  function GetCourses(b: Builder): (r: Builder)
    ensures r.endpoint == Assigned(CoursesEndpoint) && r.httpMethod == Assigned(MethodGet)
    ensures r == b.(endpoint := r.endpoint, httpMethod := r.httpMethod)
  {
    b.(endpoint := Assigned(CoursesEndpoint), httpMethod := Assigned(MethodGet))
  }

  /** `withQueryString($array)` and its alias `query`. */
  function WithQueryString(b: Builder, q: PhpArray<Value>): (r: Builder)
    ensures r.queryString == q && r == b.(queryString := q)
  {
    b.(queryString := q)
  }

  /** The argument of `withQueryString`: an array of variables, or query text. */
  datatype QueryArgument = QueryArray(vars: PhpArray<Value>) | QueryText(text: string)

  /** A call that may raise part-way: the builder as the call leaves it, and the error
      it raised, if any. */
  datatype Outcome = Outcome(builder: Builder, error: Option<BuilderError>)

  /** `withQueryString($queryString)` as written: the text branch parses into the
      property, then assigns the text itself to the `array`-typed property, which raises
      a TypeError after the parsed variables are already stored; only the array branch
      completes. */
  function WithQueryStringAsWritten(b: Builder, arg: QueryArgument): (r: Outcome)
    ensures r.error.None? <==> arg.QueryArray?
    ensures arg.QueryArray? ==> r.builder == WithQueryString(b, arg.vars)
    ensures arg.QueryText? ==>
              && r.error == Some(TypeError("queryString"))
              && r.builder == b.(queryString := r.builder.queryString)
              && Wf(r.builder.queryString)
  {
    match arg
    case QueryArray(q) => Outcome(WithQueryString(b, q), None)
    case QueryText(t) =>
      ParseStrStrings(t);
      Outcome(WithQueryString(b, ParseStr(t)), Some(TypeError("queryString")))
  }

  /** `withQueryString($queryString)` as intended: query text is parsed with `parse_str`
      into the variables. */
  function WithQueryStringIntended(b: Builder, arg: QueryArgument): (r: Builder)
    ensures arg.QueryArray? ==> r == WithQueryString(b, arg.vars)
    ensures arg.QueryText? ==> r == b.(queryString := r.queryString) && Wf(r.queryString)
  {
    match arg
    case QueryArray(q) => WithQueryString(b, q)
    case QueryText(t) => ParseStrStrings(t); WithQueryString(b, ParseStr(t))
  }

  /** The discrepancy on the smallest query: `withQueryString('q=x')` raises, where the
      intended builder holds `q` = `'x'` and nothing else. A caller that catches the
      error is left with the variables `parse_str` already stored, which are the
      intended ones. */
  lemma QueryTextRejected(b: Builder)
    ensures WithQueryStringAsWritten(b, QueryText("q=x")).error == Some(TypeError("queryString"))
    ensures WithQueryStringIntended(b, QueryText("q=x")).queryString.entries == [(StrKey("q"), Str("x"))]
    ensures WithQueryStringAsWritten(b, QueryText("q=x")).builder == WithQueryStringIntended(b, QueryText("q=x"))
  {
    assert Split("q=x", '&') == ["q=x"];
    assert SplitPair("q=x") == ("q", "x") by {
      IndexOfAfter("q", '=', "x");
      assert "q" + ['='] + "x" == "q=x";
      assert "q=x"[..1] == "q" && "q=x"[2..] == "x";
    }
    assert NormalizeKey("q") == StrKey("q");
  }

  /** With the text branch corrected, a builder takes over the query text another builder
      sends: the variables come back in order, as strings. */
  lemma QueryTextAdopted(b: Builder, other: Builder)
    requires Unambiguous(other.queryString)
    ensures WithQueryStringIntended(b, QueryText(BuildQuery(other.queryString))).queryString.entries
            == AsStrings(other.queryString.entries)
  {
    ParseBuiltQuery(other.queryString);
  }

  /** `addQueryVar($key, $value)`: exactly one variable is written; an existing one keeps
      its place and a new one goes last. */
  function AddQueryVar(b: Builder, key: string, v: Value): (r: Builder)
    ensures Get(r.queryString, NormalizeKey(key)) == Some(v)
    ensures forall k :: k != NormalizeKey(key) ==> Get(r.queryString, k) == Get(b.queryString, k)
    ensures forall k :: HasKey(b.queryString, NormalizeKey(key)) ==>
              Find(r.queryString.entries, k) == Find(b.queryString.entries, k)
    ensures !HasKey(b.queryString, NormalizeKey(key)) ==>
              r.queryString.entries == b.queryString.entries + [(NormalizeKey(key), v)]
    ensures Wf(b.queryString) ==> Wf(r.queryString)
    ensures r == b.(queryString := r.queryString)
  {
    SetKeepsPositions(b.queryString, NormalizeKey(key), v);
    b.(queryString := Set(b.queryString, NormalizeKey(key), v))
  }

  /** Overwriting an existing key moves no key; a new key is appended. */
  lemma SetKeepsPositions(a: PhpArray<Value>, key: Key, v: Value)
    ensures forall k :: HasKey(a, key) ==> Find(Set(a, key, v).entries, k) == Find(a.entries, k)
    ensures !HasKey(a, key) ==> Set(a, key, v).entries == a.entries + [(key, v)]
  {
    if !HasKey(a, key) {
      SetNewKey(a, key, v);
    } else {
      forall k ensures Find(Set(a, key, v).entries, k) == Find(a.entries, k) {
        FindByKeys(Set(a, key, v).entries, a.entries, k);
      }
    }
  }

  /** `q($query)` and its alias `queryExpression`. */
  function Q(b: Builder, query: string): (r: Builder)
    ensures Get(r.queryString, StrKey("q")) == Some(Str(query))
    ensures forall k :: k != StrKey("q") ==> Get(r.queryString, k) == Get(b.queryString, k)
    ensures r == b.(queryString := r.queryString)
  {
    assert NormalizeKey("q") == StrKey("q");
    AddQueryVar(b, "q", Str(query))
  }

  /** `pageSize($n)`: the variable is `pagesize`. */
  function PageSize(b: Builder, n: int): (r: Builder)
    ensures Get(r.queryString, StrKey("pagesize")) == Some(Int(n))
    ensures forall k :: k != StrKey("pagesize") ==> Get(r.queryString, k) == Get(b.queryString, k)
    ensures r == b.(queryString := r.queryString)
  {
    assert NormalizeKey("pagesize") == StrKey("pagesize");
    AddQueryVar(b, "pagesize", Int(n))
  }

  /** `page($n)` */
  function Page(b: Builder, n: int): (r: Builder)
    ensures Get(r.queryString, StrKey("page")) == Some(Int(n))
    ensures forall k :: k != StrKey("page") ==> Get(r.queryString, k) == Get(b.queryString, k)
    ensures r == b.(queryString := r.queryString)
  {
    assert NormalizeKey("page") == StrKey("page");
    AddQueryVar(b, "page", Int(n))
  }

  /** `raw()` and `asJsonResponse()` */
  function Raw(b: Builder): (r: Builder)
    ensures !r.asJsonResponse && r == b.(asJsonResponse := false)
  {
    b.(asJsonResponse := false)
  }

  function AsJsonResponse(b: Builder): (r: Builder)
    ensures r.asJsonResponse && r == b.(asJsonResponse := true)
  {
    b.(asJsonResponse := true)
  }

  /** `setMethod($method)` and its alias `method`. */
  function SetMethod(b: Builder, m: string): (r: Builder)
    ensures r.httpMethod == Assigned(m) && r == b.(httpMethod := Assigned(m))
  {
    b.(httpMethod := Assigned(m))
  }

  /** The options after `buildRequestJson` for an initialized method (None for null).
      The table and id properties it consults are never declared, so they read as null. */
  function JsonOptions(options: PhpArray<Value>, m: Option<string>, data: Option<PhpArray<Value>>): (r: PhpArray<Value>)
    ensures m == Some(MethodGet) || m == Some("delete") ==> r == options
    ensures !(m == Some(MethodGet) || m == Some("delete")) ==>
              && (data.Some? && |data.value.entries| > 0 ==> Get(r, JsonKey) == Some(Arr(data.value)))
              && (Wf(options) && (data.None? || |data.value.entries| == 0) ==> !HasKey(r, JsonKey))
              && (forall k :: k != JsonKey ==> Get(r, k) == Get(options, k))
    ensures Wf(options) ==> Wf(r)
  {
    if m == Some(MethodGet) || m == Some("delete") then options
    else
      var reset := Set(options, JsonKey, Arr(Empty()));
      var filled := if data.Some? && |data.value.entries| > 0 then Set(reset, JsonKey, Arr(data.value)) else reset;
      if Truthy(Get(filled, JsonKey).value) then filled else Unset(filled, JsonKey)
  }

  /** `buildRequestJson()` */
  function BuildRequestJson(b: Builder): (r: Result<Builder, BuilderError>)
    ensures b.httpMethod.Uninitialized? <==> r.Failure?
    ensures r.Success? ==> r.value == b.(options := r.value.options)
    ensures r.Success? ==> r.value.options == JsonOptions(b.options, MethodValue(b.httpMethod), b.data)
  {
    match b.httpMethod
    case Uninitialized => Failure(UninitializedProperty("method"))
    case Nulled => Success(b.(options := JsonOptions(b.options, None, b.data)))
    case Assigned(m) => Success(b.(options := JsonOptions(b.options, Some(m), b.data)))
  }

  /** The body goes as JSON for every method but GET and lower-case `delete`: upper-case
      DELETE, as `delete()` sets it, sends its data too. */
  lemma JsonBodyByMethod(options: PhpArray<Value>, data: PhpArray<Value>)
    requires |data.entries| > 0
    ensures JsonOptions(options, Some(MethodGet), Some(data)) == options
    ensures JsonOptions(options, Some("delete"), Some(data)) == options
    ensures Get(JsonOptions(options, Some(MethodDelete), Some(data)), JsonKey) == Some(Arr(data))
    ensures Get(JsonOptions(options, Some(MethodPost), Some(data)), JsonKey) == Some(Arr(data))
  {
  }

  /** The options after `buildRequestQuery`: GET and POST carry the query text. */
  function QueryOptions(options: PhpArray<Value>, m: Option<string>, q: PhpArray<Value>): (r: PhpArray<Value>)
    ensures !(m == Some(MethodGet) || m == Some(MethodPost)) ==> r == options
    ensures m == Some(MethodGet) || m == Some(MethodPost) ==>
              && Get(r, QueryKey) == Some(Str(BuildQuery(q)))
              && (forall k :: k != QueryKey ==> Get(r, k) == Get(options, k))
    ensures Wf(options) ==> Wf(r)
  {
    if m == Some(MethodGet) || m == Some(MethodPost) then Set(options, QueryKey, Str(BuildQuery(q)))
    else options
  }

  /** `buildRequestQuery()` */
  function BuildRequestQuery(b: Builder): (r: Result<Builder, BuilderError>)
    ensures b.httpMethod.Uninitialized? <==> r.Failure?
    ensures r.Success? ==> r.value == b.(options := r.value.options)
    ensures r.Success? ==> r.value.options == QueryOptions(b.options, MethodValue(b.httpMethod), b.queryString)
  {
    match b.httpMethod
    case Uninitialized => Failure(UninitializedProperty("method"))
    case Nulled => Success(b)
    case Assigned(m) => Success(b.(options := QueryOptions(b.options, Some(m), b.queryString)))
  }

  /** The query text of a GET or POST lists every variable as `key=value` in insertion
      order, so a parser that splits it reads the variables back (as strings). */
  lemma QueryTextReadsBack(b: Builder, m: string)
    requires m == MethodGet || m == MethodPost
    requires Unambiguous(b.queryString)
    ensures var o := QueryOptions(b.options, Some(m), b.queryString);
            && Get(o, QueryKey).Some? && Get(o, QueryKey).value.Str?
            && ParseStr(Get(o, QueryKey).value.s).entries == AsStrings(b.queryString.entries)
  {
    ParseBuiltQuery(b.queryString);
  }

  /** `buildRequestJson()->buildRequestQuery()` for a method that is initialized. */
  function Prepared(b: Builder, m: Option<string>): (r: Builder)
    ensures r == b.(options := r.options)
  {
    b.(options := QueryOptions(JsonOptions(b.options, m, b.data), m, b.queryString))
  }

  /** The method as a nullable string, once initialized. */
  function MethodValue(f: Field): Option<string>
    requires !f.Uninitialized?
  {
    if f.Assigned? then Some(f.value) else None
  }

  /** `send($reset)`: build the options, make the request, wrap its body in a Response
      under the page key, and reset afterwards when asked. A call that raises leaves the
      builder as it was at that point, without the reset. */
  function Send(b: Builder, reset: bool, transport: Transport): (s: Sent)
    ensures b.httpMethod.Uninitialized? ==> s == Sent(b, Failure(UninitializedProperty("method")), [])
    ensures |s.requests| <= 1
    ensures |s.requests| == 1 <==> b.httpMethod.Assigned? && b.endpoint.Assigned?
    ensures s.requests != [] ==>
              s.requests[0] == HttpRequest(b.httpMethod.value, b.endpoint.value,
                                           Prepared(b, Some(b.httpMethod.value)).options, b.asJsonResponse)
    ensures s.result.Success? ==>
              && !b.asJsonResponse && |s.requests| == 1 && transport(s.requests[0]).Success?
              && s.result.value == Response.New(transport(s.requests[0]).value, b.pageKey)
              && s.builder == (if reset then Reset(Prepared(b, Some(b.httpMethod.value))) else Prepared(b, Some(b.httpMethod.value)))
    ensures s.result.Failure? && !b.httpMethod.Uninitialized? ==> s.builder == Prepared(b, MethodValue(b.httpMethod))
    ensures b.httpMethod.Assigned? && b.endpoint.Assigned? && !b.asJsonResponse && transport(s.requests[0]).Success? ==>
              s.result.Success?
  {
    match b.httpMethod
    case Uninitialized => Sent(b, Failure(UninitializedProperty("method")), [])
    case Nulled =>
      var p := Prepared(b, None);
      if b.endpoint.Uninitialized? then Sent(p, Failure(UninitializedProperty("endpoint")), [])
      else Sent(p, Failure(TypeError("method")), [])
    case Assigned(m) =>
      var p := Prepared(b, Some(m));
      match b.endpoint
      case Uninitialized => Sent(p, Failure(UninitializedProperty("endpoint")), [])
      case Nulled => Sent(p, Failure(TypeError("endpoint")), [])
      case Assigned(e) =>
        var request := HttpRequest(m, e, p.options, b.asJsonResponse);
        match transport(request)
        case Failure(msg) => Sent(p, Failure(TransportFailure(msg)), [request])
        case Success(body) =>
          if b.asJsonResponse then Sent(p, Failure(TypeError("data")), [request])
          else Sent(if reset then Reset(p) else p, Success(Response.New(body, b.pageKey)), [request])
  }

  /** A successful send resets exactly when asked, keeping the query variables either way. */
  lemma SendResetsIffAsked(b: Builder, transport: Transport)
    requires Send(b, true, transport).result.Success?
    ensures Send(b, true, transport).builder == Reset(Send(b, false, transport).builder)
    ensures Send(b, false, transport).builder.endpoint == b.endpoint
    ensures Send(b, true, transport).builder.queryString == b.queryString
  {
  }

  /** `get($endpoint)`, `post()`, `put()`, `patch()`, `delete()`: set the method and send
      with reset; `get` first sets a truthy endpoint. */
  function SendGet(b: Builder, endpoint: Option<string>, transport: Transport): (s: Sent)
    ensures endpoint.Some? && StringTruthy(endpoint.value) ==>
              s == Send(SetMethod(SetEndpoint(b, endpoint.value), MethodGet), true, transport)
    ensures !(endpoint.Some? && StringTruthy(endpoint.value)) ==> s == Send(SetMethod(b, MethodGet), true, transport)
  {
    var b' := if endpoint.Some? && StringTruthy(endpoint.value) then SetEndpoint(b, endpoint.value) else b;
    Send(SetMethod(b', MethodGet), true, transport)
  }

  function SendWith(b: Builder, m: string, transport: Transport): (s: Sent)
    requires m in {MethodPost, MethodPut, MethodPatch, MethodDelete}
    ensures s.requests != [] ==> s.requests[0].httpMethod == m
    ensures b.endpoint.Assigned? <==> |s.requests| == 1
    ensures s == Send(SetMethod(b, m), true, transport)
  {
    Send(SetMethod(b, m), true, transport)
  }

  /** The address a request reaches: the endpoint with the `query` option appended. */
  function Target(endpoint: string, query: string): string {
    if query == "" then endpoint else endpoint + "?" + query
  }

  /** `paginate($pageSize)`: create the paginator on first use (which sets the page-size
      variable), take its next page, and reset the builder when it answers null. */
  function Paginate(b: Builder, pageSize: int, server: Paginator.Server): (p: Paged)
    ensures b.paginator.Some? ==>
              p.builder.paginator.None? || p.builder.paginator.value.pageSize == b.paginator.value.pageSize
    ensures b.paginator.Some? ==>
              var q := PageStep(b, b.paginator.value, server);
              p == (if q.result == Success(None) then Paged(Reset(q.builder), q.result, q.fetched) else q)
    ensures b.paginator.None? ==>
              p.builder.paginator.None? || p.builder.paginator.value.pageSize == pageSize
    ensures p.result == Success(None) ==> p.builder.paginator.None? && p.builder.endpoint == Nulled
    ensures p.result.Failure? ==> p.builder.paginator.Some?
  {
    var (b1, c) := if b.paginator.Some? then (b, b.paginator.value)
                   else (PageSize(b, pageSize), Paginator.New(pageSize));
    var p := PageStep(b1, c, server);
    if p.result == Success(None) then Paged(Reset(p.builder), p.result, p.fetched) else p
  }

  /** The URL of the builder's own first-page request: its endpoint with the query of
      `page(1)`. Only the first request reads it. */
  function FirstUrl(b: Builder): Paginator.Url {
    if b.endpoint.Assigned? then Target(b.endpoint.value, BuildQuery(Page(b, 1).queryString)) else ""
  }

  /** `paginate()` with no argument: a paginator created by it asks for 100 items per
      page. */
  function PaginateDefault(b: Builder, server: Paginator.Server): (p: Paged)
    ensures b.paginator.None? ==>
              p.builder.paginator.None? || p.builder.paginator.value.pageSize == DefaultPaginateSize
    ensures b.paginator.None? && b.endpoint.Assigned? ==>
              var q := Page(PageSize(b, DefaultPaginateSize), 1).queryString;
              && p.fetched == [Target(b.endpoint.value, BuildQuery(q))]
              && Get(q, StrKey("pagesize")) == Some(Int(100))
    ensures p == Paginate(b, DefaultPaginateSize, server)
  {
    var p := Paginate(b, DefaultPaginateSize, server);
    if b.paginator.None? && b.endpoint.Assigned? then
      FirstPaginate(b, DefaultPaginateSize, server);
      p
    else p
  }

  /** `page()` of the paginator `c` that drives builder `b`. On its first request it sets
      `page=1` and GET and sends through the builder without reset; later requests follow
      the links. On success the builder keeps the cursor `c` moved on by one page; on
      failure the paginator is as it was. */
  function PageStep(b: Builder, c: Paginator.Cursor, server: Paginator.Server): (p: Paged)
    ensures p.builder.paginator.Some? && p.builder.paginator.value.pageSize == c.pageSize
    ensures p.result.Failure? ==> p.builder.paginator == Some(c)
    ensures p.result.Success? ==>
              var s := Paginator.NextPage(c, server, FirstUrl(b));
              && p.builder.paginator == Some(s.cursor)
              && s.result.Success? && p.result == Success(s.result.value) && p.fetched == s.fetched
    ensures !c.hasMorePages ==> p == Paged(b.(paginator := Some(c)), Success(None), [])
    ensures c.hasMorePages && c.isFirstRequest && b.endpoint.Assigned? ==>
              && p.fetched == [Target(b.endpoint.value, BuildQuery(Page(b, 1).queryString))]
              && (p.result.Success? ==> p.builder.httpMethod == Assigned(MethodGet))
    ensures c.hasMorePages && c.isFirstRequest && !b.endpoint.Assigned? ==> p.fetched == [] && p.result.Failure?
  {
    if c.hasMorePages && c.isFirstRequest then
      var b2 := Prepared(SetMethod(Page(b, 1), MethodGet), Some(MethodGet));
      match b2.endpoint
      case Uninitialized => Paged(b2.(paginator := Some(c)), Failure(UninitializedProperty("endpoint")), [])
      case Nulled => Paged(b2.(paginator := Some(c)), Failure(TypeError("endpoint")), [])
      case Assigned(e) =>
        var s := Paginator.NextPage(c, server, Target(e, BuildQuery(b2.queryString)));
        if s.result.Failure? then Paged(b2.(paginator := Some(c)), Failure(PageFailure(s.result.error.url)), s.fetched)
        else if b2.asJsonResponse then Paged(b2.(paginator := Some(c)), Failure(TypeError("data")), s.fetched)
        else Paged(b2.(paginator := Some(s.cursor)), Success(s.result.value), s.fetched)
    else
      // The start URL is read only on the first request.
      var s := Paginator.NextPage(c, server, "");
      if s.result.Failure? then Paged(b.(paginator := Some(c)), Failure(PageFailure(s.result.error.url)), s.fetched)
      else Paged(b.(paginator := Some(s.cursor)), Success(s.result.value), s.fetched)
  }

  /** The first `paginate` on a builder with an endpoint asks for page 1 of that endpoint
      with the page size, as a GET. */
  lemma FirstPaginate(b: Builder, pageSize: int, server: Paginator.Server)
    requires b.paginator.None? && b.endpoint.Assigned?
    ensures var p := Paginate(b, pageSize, server);
            var q := Page(PageSize(b, pageSize), 1).queryString;
            && p.fetched == [Target(b.endpoint.value, BuildQuery(q))]
            && Get(q, StrKey("pagesize")) == Some(Int(pageSize))
            && Get(q, StrKey("page")) == Some(Int(1))
            && (p.result.Success? && p.result.value.Some? ==> p.builder.httpMethod == Assigned(MethodGet))
  {
    var b1 := PageSize(b, pageSize);
    assert b1.endpoint == b.endpoint;
    var p := PageStep(b1, Paginator.New(pageSize), server);
    assert Paginate(b, pageSize, server).fetched == p.fetched;
  }

  /** The paginator is created once and then reused: after a first `paginate` that
      answers a page with a next link the server has, the second `paginate` (whatever
      page size it is given) fetches exactly that link and answers its page as page 2. */
  lemma PaginateContinues(b: Builder, pageSize: int, pageSize': int, server: Paginator.Server)
    requires b.paginator.None?
    requires var p := Paginate(b, pageSize, server);
             p.result.Success? && p.result.value.Some? && Paginator.HasNext(p.result.value.value)
    ensures var p := Paginate(b, pageSize, server);
            var next := p.result.value.value.links.next.value;
            var p' := Paginate(p.builder, pageSize', server);
            && p'.fetched == [next]
            && (next in server ==>
                  && p'.result == Success(Some(server[next]))
                  && p'.builder.paginator.Some?
                  && p'.builder.paginator.value.currentPage == 2
                  && p'.builder.paginator.value.pageSize == pageSize)
            && (next !in server ==> p'.result == Failure(PageFailure(next)))
  {
  }

  /** Once the paginator has answered null the builder is reset: the paginator is gone and
      the endpoint is null, so the next `paginate` creates a new paginator whose first
      request fails on the null endpoint before anything is fetched. */
  lemma PaginateRestarts(b: Builder, pageSize: int, pageSize': int, server: Paginator.Server)
    requires Paginate(b, pageSize, server).result == Success(None)
    ensures var b' := Paginate(b, pageSize, server).builder;
            && b'.paginator.None?
            && Paginate(b', pageSize', server).fetched == []
            && Paginate(b', pageSize', server).result == Failure(TypeError("endpoint"))
  {
  }
}

=== FILE: response.dfy ===
/** The response container of src/Response.php: the decoded body with array access, a
    cursor over integer positions (PHP's Iterator protocol), and the
    __serialize/__unserialize pair. */
module Response {
  import opened Base
  import opened Decimal
  import opened PhpArrays
  import opened PhpValues

  /** A Response object: its data, the table name the builder passes (its page key),
      expansions, extensions, and the iterator position. */
  datatype Envelope = Envelope(
    data: PhpArray<Value>,
    tableName: string,
    expansions: PhpArray<Value>,
    extensions: PhpArray<Value>,
    index: int)

  /** What __unserialize raises: a typed property assigned a value of the wrong type. */
  datatype ResponseError = TypeError(property: string)

  /** `new Response($data, $tableName)` */
  function New(data: PhpArray<Value>, tableName: string): Envelope {
    Envelope(data, tableName, Empty(), Empty(), 0)
  }

  /** `count()` */
  function Count(r: Envelope): nat {
    |r.data.entries|
  }

  /** `current()`: the value at the cursor; PHP warns and yields null when absent. */
  function Current(r: Envelope): Value {
    Get(r.data, IntKey(r.index)).GetOr(Null)
  }

  /** `key()` */
  function CurrentKey(r: Envelope): int {
    r.index
  }

  /** `next()` */
  function Next(r: Envelope): Envelope {
    r.(index := r.index + 1)
  }

  /** `valid()`: `isset($this->data[$this->index])`. */
  predicate Valid(r: Envelope) {
    IsSet(r.data, IntKey(r.index))
  }

  /** `rewind()` */
  function Rewind(r: Envelope): Envelope {
    r.(index := 0)
  }

  /** A PHP integer. */
  type Int64 = i: int | MinInt <= i <= MaxInt

  /** An array offset as the ArrayAccess methods receive it: an integer or a string. */
  datatype Offset = IntOffset(i: Int64) | StrOffset(s: string)

  /** The key an offset addresses: an integer addresses itself, and a string is
      normalised, so `'5'` addresses the integer key 5. */
  function OffsetKey(o: Offset): (k: Key)
    ensures ProperKey(k)
    ensures o.StrOffset? ==> RenderKey(k) == o.s
    ensures o.IntOffset? ==> k == IntKey(o.i)
  {
    match o
    case IntOffset(i) => IntKey(i)
    case StrOffset(s) => NormalizeKey(s)
  }

  /** `offsetExists($offset)`: `isset($this->data[$offset])`. */
  predicate OffsetExists(r: Envelope, offset: Offset) {
    IsSet(r.data, OffsetKey(offset))
  }

  /** `offsetSet($offset, $value)`: a null offset appends, any other writes the key the
      offset addresses. */
  function OffsetSet(r: Envelope, offset: Option<Offset>, v: Value): (r': Envelope)
    requires Wf(r.data)
    ensures Wf(r'.data)
    ensures r'.(data := r.data) == r
    ensures offset.None? ==> r'.data.entries == r.data.entries + [(IntKey(r.data.nextFree), v)]
    ensures offset.Some? ==> Get(r'.data, OffsetKey(offset.value)) == Some(v)
    ensures offset.Some? ==> forall k :: k != OffsetKey(offset.value) ==> Get(r'.data, k) == Get(r.data, k)
  {
    match offset
    case None => r.(data := Push(r.data, v))
    case Some(o) => r.(data := Set(r.data, OffsetKey(o), v))
  }

  /** `offsetUnset($offset)` */
  function OffsetUnset(r: Envelope, offset: Offset): (r': Envelope)
    requires Wf(r.data)
    ensures Wf(r'.data)
    ensures r'.(data := r.data) == r
    ensures Get(r'.data, OffsetKey(offset)).None?
    ensures forall k :: k != OffsetKey(offset) ==> Get(r'.data, k) == Get(r.data, k)
  {
    r.(data := Unset(r.data, OffsetKey(offset)))
  }

  /** A string offset that spells an integer addresses the same entry as that integer:
      writing, unsetting and testing through `'5'` act on the key 5. */
  lemma StringOffsetIsInteger(r: Envelope, i: Int64, v: Value)
    requires Wf(r.data)
    ensures OffsetSet(r, Some(StrOffset(IntToString(i))), v) == OffsetSet(r, Some(IntOffset(i)), v)
    ensures OffsetUnset(r, StrOffset(IntToString(i))) == OffsetUnset(r, IntOffset(i))
    ensures OffsetExists(r, StrOffset(IntToString(i))) <==> OffsetExists(r, IntOffset(i))
  {
    NormalizeRenderedKey(IntKey(i));
  }

  /** `__get($name)`: `$this->data[$name] ?? null`, the name addressing an integer key
      when it spells one. */
  function MagicGet(r: Envelope, name: string): (v: Value)
    ensures v == Get(r.data, NormalizeKey(name)).GetOr(Null)
    ensures name == RenderKey(NormalizeKey(name))
  {
    Coalesce(r.data, NormalizeKey(name), Null)
  }

  /** `toArray()` */
  function ToArray(r: Envelope): PhpArray<Value> {
    r.data
  }

  /** A new response exposes its data unchanged and starts at position 0; `rewind` and
      `next` move only the position, `key` reports it, and `valid` holds exactly when a
      non-null value sits there. */
  lemma CursorMoves(r: Envelope, data: PhpArray<Value>, tableName: string)
    ensures ToArray(New(data, tableName)) == data && Count(New(data, tableName)) == |data.entries|
    ensures CurrentKey(New(data, tableName)) == 0
    ensures CurrentKey(Rewind(r)) == 0 && CurrentKey(Next(r)) == CurrentKey(r) + 1
    ensures ToArray(Rewind(r)) == ToArray(r) && ToArray(Next(r)) == ToArray(r)
    ensures Valid(r) <==> Get(r.data, IntKey(CurrentKey(r))).Some? && !Current(r).Null?
    ensures Valid(r) ==> Get(r.data, IntKey(CurrentKey(r))) == Some(Current(r))
  {
  }

  /** `count()` follows the writes: a new key adds one, an existing key adds none, and
      unsetting a present key removes one. */
  lemma CountTracksEntries(r: Envelope, o: Offset, v: Value)
    requires Wf(r.data)
    ensures Count(OffsetSet(r, None, v)) == Count(r) + 1
    ensures Count(OffsetSet(r, Some(o), v)) == Count(r) + (if HasKey(r.data, OffsetKey(o)) then 0 else 1)
    ensures Count(OffsetUnset(r, o)) == Count(r) - (if HasKey(r.data, OffsetKey(o)) then 1 else 0)
  {
  }

  /** offsetExists is true exactly for offsets written with a non-null value and not
      unset since, and an existing offset reads the same through `__get` under its text. */
  lemma OffsetExistsAfterWrites(r: Envelope, o: Offset, v: Value)
    requires Wf(r.data)
    ensures OffsetExists(OffsetSet(r, Some(o), v), o) <==> !v.Null?
    ensures !OffsetExists(OffsetUnset(r, o), o)
    ensures OffsetExists(r, o) ==> Get(r.data, OffsetKey(o)) == Some(MagicGet(r, RenderKey(OffsetKey(o))))
  {
    NormalizeRenderedKey(OffsetKey(o));
  }

  /** `foreach ($response as $key => $value)`: rewind, then collect key() and current()
      and advance while valid(). */
  method Iterate(r: Envelope) returns (keys: seq<int>, values: seq<Value>)
    requires Wf(r.data)
    ensures |keys| == |values|
    ensures forall i :: 0 <= i < |keys| ==> keys[i] == i
    ensures forall i :: 0 <= i < |values| ==> IsSet(r.data, IntKey(i)) && Get(r.data, IntKey(i)) == Some(values[i])
    ensures !IsSet(r.data, IntKey(|values|))
    ensures IsList(r.data) ==> values == ValuesOf(r.data.entries)
  {
    var it := Rewind(r);
    keys, values := [], [];
    while Valid(it)
      invariant it.data == r.data
      invariant it.index == |values| == |keys|
      invariant forall i :: 0 <= i < |keys| ==> keys[i] == i
      invariant forall i :: 0 <= i < |values| ==> IsSet(r.data, IntKey(i)) && Get(r.data, IntKey(i)) == Some(values[i])
      decreases r.data.nextFree - it.index
    {
      keys := keys + [CurrentKey(it)];
      values := values + [Current(it)];
      it := Next(it);
    }
    if IsList(r.data) {
      var n := |r.data.entries|;
      ListKeys(r.data, |values|);
      ListKeys(r.data, n);
      assert |values| == n;
      forall i | 0 <= i < |values| ensures values[i] == r.data.entries[i].1 {
        ListKeys(r.data, i);
      }
    }
  }

  /** A list-shaped body: keys 0, 1, 2, ... in order, no null values (a decoded JSON
      array of objects). */
  ghost predicate IsList(a: PhpArray<Value>) {
    && Wf(a)
    && forall i :: 0 <= i < |a.entries| ==> a.entries[i].0 == IntKey(i) && !a.entries[i].1.Null?
  }

  lemma ListKeys(a: PhpArray<Value>, n: int)
    requires IsList(a)
    ensures IsSet(a, IntKey(n)) <==> 0 <= n < |a.entries|
    ensures 0 <= n < |a.entries| ==> Get(a, IntKey(n)) == Some(a.entries[n].1)
  {
    if Get(a, IntKey(n)).Some? {
      var j :| 0 <= j < |a.entries| && a.entries[j] == (IntKey(n), Get(a, IntKey(n)).value);
    }
  }

  /** `__serialize()`: the four stored properties under their names. */
  function Serialize(r: Envelope): (s: PhpArray<Value>)
    ensures Wf(s) && |s.entries| == 4
    ensures Get(s, StrKey("data")) == Some(Arr(r.data))
    ensures Get(s, StrKey("table_name")) == Some(Str(r.tableName))
    ensures Get(s, StrKey("expansions")) == Some(Arr(r.expansions))
    ensures Get(s, StrKey("extensions")) == Some(Arr(r.extensions))
  {
    var s := PhpArray([
      (StrKey("data"), Arr(r.data)),
      (StrKey("table_name"), Str(r.tableName)),
      (StrKey("expansions"), Arr(r.expansions)),
      (StrKey("extensions"), Arr(r.extensions))], 0);
    assert DistinctKeys(s.entries);
    assert s.entries[1].0 == StrKey("table_name") && s.entries[2].0 == StrKey("expansions");
    assert s.entries[3].0 == StrKey("extensions");
    s
  }

  /** Reads an array-typed property; a missing key reads as null, and null or a
      non-array raises a TypeError. */
  function ArrayProperty(s: PhpArray<Value>, name: string): (r: Result<PhpArray<Value>, ResponseError>)
    ensures r.Success? <==> Get(s, StrKey(name)).Some? && Get(s, StrKey(name)).value.Arr?
    ensures r.Success? ==> Get(s, StrKey(name)) == Some(Arr(r.value))
  {
    var v: Option<Value> := Get(s, StrKey(name));
    match v
    case Some(Arr(a)) => Success(a)
    case _ => Failure(TypeError(name))
  }

  /** Reads a string-typed property: ints and bools are converted, null (or a missing
      key) and arrays raise a TypeError. */
  function StringProperty(s: PhpArray<Value>, name: string): (r: Result<string, ResponseError>)
    ensures Get(s, StrKey(name)).Some? && Get(s, StrKey(name)).value.Str? ==>
              r == Success(Get(s, StrKey(name)).value.s)
    ensures Get(s, StrKey(name)).None? ==> r.Failure?
  {
    if Get(s, StrKey(name)).Some? && CoerceToString(Get(s, StrKey(name)).value).Some? then
      Success(CoerceToString(Get(s, StrKey(name)).value).value)
    else
      Failure(TypeError(name))
  }

  /** `__unserialize($data)` on a fresh object: the four properties are read back and
      the iterator position keeps its default 0. */
  function Unserialize(s: PhpArray<Value>): (r: Result<Envelope, ResponseError>)
    ensures r.Success? ==> r.value.index == 0
    ensures Get(s, StrKey("data")).None? ==> r == Failure(TypeError("data"))
  {
    var data :- ArrayProperty(s, "data");
    var tableName :- StringProperty(s, "table_name");
    var expansions :- ArrayProperty(s, "expansions");
    var extensions :- ArrayProperty(s, "extensions");
    Success(Envelope(data, tableName, expansions, extensions, 0))
  }

  /** Unserialising a serialised response restores data, table name, expansions and
      extensions exactly; only the iterator position starts over. */
  lemma SerializeRoundTrip(r: Envelope)
    ensures Unserialize(Serialize(r)) == Success(r.(index := 0))
  {
  }
}

=== FILE: token_manager.dfy ===
/** The OAuth token lifecycle of src/TokenManager.php: expiry with a five-minute safety
    margin, the refresh-token grant of section 6 of RFC 6749 (with `expires_in` as in
    section 5.1), and the cache record that carries the state between processes.
    The clock, the grant's HTTP outcome and the md5 digest are parameters; the cache
    is a plain map whose time-to-live is recorded, not enforced. */
module TokenManager {
  import opened Base
  import opened PhpValues

  /** Seconds before expiry at which a token already counts as expired. */
  const ExpiryMargin: int := 300
  /** Lifetime assumed when the grant response carries no `expires_in`. */
  const DefaultLifetime: int := 3600
  /** Lifetime `setAccessToken` gives a token when none is passed. */
  const SetTokenLifetime: int := 3600
  /** How much longer than the token the cache keeps its record. */
  const CacheGrace: int := 3600

  const CachePrefix: string := "canvas_token_"
  const MissingRefreshMessage: string := "Refresh token is required for auto-refresh"
  const InvalidResponseMessage: string := "Invalid response from token refresh endpoint"
  const RefreshFailedPrefix: string := "Failed to refresh token: "

  /** The object's state; `accessToken` and `expiresAt` are nullable, the rest are strings. */
  datatype Manager = Manager(
    domain: string,
    clientId: string,
    clientSecret: string,
    refreshToken: string,
    accessToken: Option<string>,
    expiresAt: Option<int>,
    cacheKey: string)

  /** What the cache holds under a key: the three-field array `saveTokenToCache` writes,
      or some value that is not an array. */
  datatype Cached =
    | TokenArray(accessToken: Option<string>, expiresAt: Option<int>, refreshToken: Option<string>)
    | NotArray
  datatype Stored = Stored(value: Cached, ttl: int)
  type Cache = map<string, Stored>

  /** The form parameters of the refresh-token grant request. */
  datatype GrantRequest = GrantRequest(clientId: string, clientSecret: string, refreshToken: string)

  /** The decoded fields of a successful token endpoint response. */
  datatype TokenResponse = TokenResponse(
    accessToken: Option<string>, expiresIn: Option<int>, refreshToken: Option<string>)

  /** How the POST to the token endpoint ended: a decoded 2xx body, a 4xx with its decoded
      body's `error_description` (if any), the exception message and status code, or any
      other transport exception, which is not caught. */
  datatype GrantOutcome =
    | Answered(body: TokenResponse)
    | ClientError(errorDescription: Option<string>, message: string, code: int)
    | OtherFailure(message: string)

  datatype TokenError =
    | MissingRefreshToken(message: string)
    | TokenRefreshFailed(message: string, code: int)
    | TransportFailure(message: string)

  /** The object and cache after an operation, the grant requests it sent, and its result. */
  datatype Step<T> = Step(manager: Manager, cache: Cache, sent: seq<GrantRequest>, result: Result<T, TokenError>)

  /** PHP truthiness of a nullable string (`!$this->accessToken`). */
  predicate TokenTruthy(t: Option<string>) {
    t.Some? && StringTruthy(t.value)
  }

  /** PHP truthiness of a nullable int (`!$this->expiresAt`). */
  predicate ExpiryTruthy(e: Option<int>) {
    e.Some? && e.value != 0
  }

  /** `rtrim($domain, '/')` */
  function RTrimSlash(s: string): (r: string)
    ensures |r| <= |s| && r == s[..|r|]
    ensures |r| > 0 ==> r[|r| - 1] != '/'
    ensures forall i :: |r| <= i < |s| ==> s[i] == '/'
  {
    if |s| > 0 && s[|s| - 1] == '/' then RTrimSlash(s[..|s| - 1]) else s
  }

  /** `isTokenExpired()` at time `now`. */
  predicate IsTokenExpired(m: Manager, now: int) {
    !TokenTruthy(m.accessToken) || !ExpiryTruthy(m.expiresAt) || now >= m.expiresAt.value - ExpiryMargin
  }

  /** Expiry as the source promises it: a token with no usable expiry time is expired,
      and one with an expiry time is valid exactly until five minutes before it. */
  lemma ExpiryRule(m: Manager, now: int)
    ensures !TokenTruthy(m.accessToken) || !ExpiryTruthy(m.expiresAt) ==> IsTokenExpired(m, now)
    ensures TokenTruthy(m.accessToken) && ExpiryTruthy(m.expiresAt) ==>
              (IsTokenExpired(m, now) <==> m.expiresAt.value - now <= ExpiryMargin)
  {
  }

  /** Once expired, a token stays expired as time passes. */
  lemma ExpiryMonotonic(m: Manager, t1: int, t2: int)
    requires t1 <= t2 && IsTokenExpired(m, t1)
    ensures IsTokenExpired(m, t2)
  {
  }

  /** The time-to-live `saveTokenToCache` passes to the cache. */
  function CacheTtl(m: Manager, now: int): int {
    if ExpiryTruthy(m.expiresAt) then m.expiresAt.value - now + CacheGrace else CacheGrace
  }

  /** `saveTokenToCache()` */
  function Save(m: Manager, cache: Cache, now: int): (c: Cache)
    ensures c.Keys == cache.Keys + {m.cacheKey}
    ensures forall k :: k in cache && k != m.cacheKey ==> c[k] == cache[k]
  {
    cache[m.cacheKey := Stored(TokenArray(m.accessToken, m.expiresAt, Some(m.refreshToken)), CacheTtl(m, now))]
  }

  /** The cache record outlives the token it holds by exactly one hour, and a record
      without an expiry time lives one hour. */
  lemma SaveTtl(m: Manager, cache: Cache, now: int)
    ensures var s := Save(m, cache, now)[m.cacheKey];
            && (ExpiryTruthy(m.expiresAt) ==> now + s.ttl == m.expiresAt.value + CacheGrace)
            && (!ExpiryTruthy(m.expiresAt) ==> s.ttl == CacheGrace)
  {
  }

  /** `loadTokenFromCache()`: a cached array replaces the access token and expiry (null
      when missing) and replaces the refresh token only when it holds one. The array
      has three keys even when they are null, so it always passes `$cached`. */
  function Load(m: Manager, cache: Cache): (r: Manager)
    ensures r.domain == m.domain && r.clientId == m.clientId && r.clientSecret == m.clientSecret
    ensures r.cacheKey == m.cacheKey
  {
    if m.cacheKey in cache && cache[m.cacheKey].value.TokenArray? then
      var t := cache[m.cacheKey].value;
      m.(accessToken := t.accessToken,
         expiresAt := t.expiresAt,
         refreshToken := t.refreshToken.GetOr(m.refreshToken))
    else
      m
  }

  /** Reading back what was saved restores the token state exactly. */
  lemma SaveLoadRoundTrip(m: Manager, cache: Cache, now: int)
    ensures Load(m, Save(m, cache, now)) == m
  {
  }

  /** A cached record without a refresh token keeps the one already held; one with a
      refresh token overrides it. */
  lemma LoadRefreshToken(m: Manager, cache: Cache)
    requires m.cacheKey in cache && cache[m.cacheKey].value.TokenArray?
    ensures cache[m.cacheKey].value.refreshToken.None? ==> Load(m, cache).refreshToken == m.refreshToken
    ensures cache[m.cacheKey].value.refreshToken.Some? ==>
              Load(m, cache).refreshToken == cache[m.cacheKey].value.refreshToken.value
    ensures Load(m, cache).accessToken == cache[m.cacheKey].value.accessToken
  {
  }

  /** A missing key, or a value that is not an array, leaves the object as it is. */
  lemma LoadNothing(m: Manager, cache: Cache)
    requires m.cacheKey !in cache || cache[m.cacheKey].value.NotArray?
    ensures Load(m, cache) == m
  {
  }

  /** `new TokenManager($domain, $clientId, $clientSecret, $refreshToken)`: the domain loses
      its trailing slashes, the cache key digests the raw domain and the client id, and
      the cached state is loaded. */
  function Construct(domain: string, clientId: string, clientSecret: string, refreshToken: string,
                     cache: Cache, md5: string -> string): (m: Manager)
    ensures m.domain == RTrimSlash(domain) && m.clientId == clientId && m.clientSecret == clientSecret
    ensures m.cacheKey == CachePrefix + md5(domain + clientId)
    ensures m.cacheKey !in cache || cache[m.cacheKey].value.NotArray? ==>
              m.accessToken.None? && m.expiresAt.None? && m.refreshToken == refreshToken
    ensures m.cacheKey in cache && cache[m.cacheKey].value.TokenArray? ==>
              var t := cache[m.cacheKey].value;
              && m.accessToken == t.accessToken && m.expiresAt == t.expiresAt
              && m.refreshToken == t.refreshToken.GetOr(refreshToken)
  {
    var m := Manager(RTrimSlash(domain), clientId, clientSecret, refreshToken, None, None,
                     CachePrefix + md5(domain + clientId));
    Load(m, cache)
  }

  /** A new object over a cache that holds the state an earlier object with the same
      domain and client saved takes over that state, its saved refresh token replacing
      the one passed in; while that token has not expired, `getValidToken()` returns
      it without a grant request. */
  lemma ConstructReusesSaved(m: Manager, cache: Cache, now: int, later: int, domain: string,
                             clientId: string, clientSecret: string, refreshToken: string,
                             md5: string -> string, post: GrantRequest -> GrantOutcome)
    requires m.cacheKey == CachePrefix + md5(domain + clientId)
    requires !IsTokenExpired(m, later)
    ensures var c := Save(m, cache, now);
            var n := Construct(domain, clientId, clientSecret, refreshToken, c, md5);
            && n.accessToken == m.accessToken && n.expiresAt == m.expiresAt
            && n.refreshToken == m.refreshToken
            && GetValidToken(n, c, later, post) == Step(n, c, [], Success(m.accessToken.value))
  {
  }

  /** The request the grant posts for this object. */
  function Grant(m: Manager): GrantRequest {
    GrantRequest(m.clientId, m.clientSecret, m.refreshToken)
  }

  /** `refreshAccessToken()` at time `now`, where `post` answers the grant request. */
  function Refresh(m: Manager, cache: Cache, now: int, post: GrantRequest -> GrantOutcome): (s: Step<()>)
    ensures s.result.Failure? ==> s.manager == m && s.cache == cache
    ensures !StringTruthy(m.refreshToken) <==> s.sent == []
    ensures s.sent != [] ==> s.sent == [Grant(m)]
  {
    if !StringTruthy(m.refreshToken) then
      Step(m, cache, [], Failure(MissingRefreshToken(MissingRefreshMessage)))
    else
      var sent := [Grant(m)];
      match post(Grant(m))
      case OtherFailure(msg) =>
        Step(m, cache, sent, Failure(TransportFailure(msg)))
      case ClientError(desc, msg, code) =>
        Step(m, cache, sent, Failure(TokenRefreshFailed(RefreshFailedPrefix + desc.GetOr(msg), code)))
      case Answered(body) =>
        if body.accessToken.None? then
          Step(m, cache, sent, Failure(TokenRefreshFailed(InvalidResponseMessage, 0)))
        else
          var m' := Granted(m, body, now);
          Step(m', Save(m', cache, now), sent, Success(()))
  }

  /** The state after an accepted grant response: the new access token, its expiry time,
      and the rotated refresh token when the response carries one. */
  function Granted(m: Manager, body: TokenResponse, now: int): (r: Manager)
    requires body.accessToken.Some?
    ensures r.accessToken == body.accessToken
    ensures r.domain == m.domain && r.clientId == m.clientId && r.clientSecret == m.clientSecret
    ensures r.cacheKey == m.cacheKey
  {
    m.(accessToken := body.accessToken,
       expiresAt := Some(now + body.expiresIn.GetOr(DefaultLifetime)),
       refreshToken := body.refreshToken.GetOr(m.refreshToken))
  }

  /** A successful refresh: the expiry is `expires_in` (default one hour) from now, the
      refresh token rotates only when a new one is sent, and the cache holds the new state. */
  lemma RefreshSuccess(m: Manager, cache: Cache, now: int, post: GrantRequest -> GrantOutcome)
    requires Refresh(m, cache, now, post).result.Success?
    ensures post(Grant(m)).Answered? && post(Grant(m)).body.accessToken.Some?
    ensures var s := Refresh(m, cache, now, post);
            var body := post(Grant(m)).body;
            && s.manager.accessToken == body.accessToken
            && s.manager.expiresAt == Some(now + body.expiresIn.GetOr(DefaultLifetime))
            && (body.refreshToken.None? ==> s.manager.refreshToken == m.refreshToken)
            && (body.refreshToken.Some? ==> s.manager.refreshToken == body.refreshToken.value)
            && Load(m, s.cache) == s.manager
  {
    var s := Refresh(m, cache, now, post);
    SaveLoadRoundTrip(s.manager, cache, now);
  }

  /** How each failing outcome is reported. */
  lemma RefreshFailures(m: Manager, cache: Cache, now: int, post: GrantRequest -> GrantOutcome)
    ensures !StringTruthy(m.refreshToken) ==>
              Refresh(m, cache, now, post).result == Failure(MissingRefreshToken(MissingRefreshMessage))
    ensures StringTruthy(m.refreshToken) && post(Grant(m)).Answered? && post(Grant(m)).body.accessToken.None? ==>
              Refresh(m, cache, now, post).result == Failure(TokenRefreshFailed(InvalidResponseMessage, 0))
    ensures StringTruthy(m.refreshToken) && post(Grant(m)).ClientError? ==>
              var o := post(Grant(m));
              Refresh(m, cache, now, post).result
                == Failure(TokenRefreshFailed(RefreshFailedPrefix + o.errorDescription.GetOr(o.message), o.code))
  {
  }

  /** A granted token with a usable value and a lifetime above the margin is valid right
      after the refresh and expires five minutes before its lifetime ends. */
  lemma RefreshedTokenValid(m: Manager, cache: Cache, now: int, post: GrantRequest -> GrantOutcome)
    requires Refresh(m, cache, now, post).result.Success?
    requires var body := post(Grant(m)).body;
             TokenTruthy(body.accessToken) && body.expiresIn.GetOr(DefaultLifetime) > ExpiryMargin
    requires now + post(Grant(m)).body.expiresIn.GetOr(DefaultLifetime) != 0
    ensures var s := Refresh(m, cache, now, post);
            var life := post(Grant(m)).body.expiresIn.GetOr(DefaultLifetime);
            && !IsTokenExpired(s.manager, now)
            && IsTokenExpired(s.manager, now + life - ExpiryMargin)
  {
    RefreshSuccess(m, cache, now, post);
  }

  /** `getValidToken()`: refresh first when the held token is expired. */
  function GetValidToken(m: Manager, cache: Cache, now: int, post: GrantRequest -> GrantOutcome): (s: Step<string>)
    ensures !IsTokenExpired(m, now) ==> s == Step(m, cache, [], Success(m.accessToken.value))
    ensures IsTokenExpired(m, now) ==>
              var r := Refresh(m, cache, now, post);
              && s.manager == r.manager && s.cache == r.cache && s.sent == r.sent
              && (r.result.Failure? <==> s.result.Failure?)
              && (s.result.Success? ==> Some(s.result.value) == s.manager.accessToken)
  {
    if IsTokenExpired(m, now) then
      var r := Refresh(m, cache, now, post);
      if r.result.Failure? then Step(r.manager, r.cache, r.sent, Failure(r.result.error))
      else
        RefreshSuccess(m, cache, now, post);
        Step(r.manager, r.cache, r.sent, Success(r.manager.accessToken.value))
    else
      Step(m, cache, [], Success(m.accessToken.value))
  }

  /** `setAccessToken($token, $expiresIn)` */
  function SetAccessToken(m: Manager, cache: Cache, now: int, token: string, expiresIn: int): (r: (Manager, Cache))
    ensures r.0 == m.(accessToken := Some(token), expiresAt := Some(now + expiresIn))
    ensures r.1 == Save(r.0, cache, now)
  {
    var m' := m.(accessToken := Some(token), expiresAt := Some(now + expiresIn));
    (m', Save(m', cache, now))
  }

  /** `setAccessToken($token)` without a lifetime: the token lives one hour, so it counts
      as expired from 55 minutes on. */
  function SetAccessTokenDefault(m: Manager, cache: Cache, now: int, token: string): (r: (Manager, Cache))
    ensures r.0.accessToken == Some(token) && r.0.expiresAt == Some(now + 3600)
    ensures r.0 == m.(accessToken := r.0.accessToken, expiresAt := r.0.expiresAt)
    ensures Load(m, r.1) == r.0
    ensures StringTruthy(token) && now + 3600 != 0 ==>
              !IsTokenExpired(r.0, now + 3299) && IsTokenExpired(r.0, now + 3300)
    ensures r == SetAccessToken(m, cache, now, token, SetTokenLifetime)
  {
    var r := SetAccessToken(m, cache, now, token, SetTokenLifetime);
    SaveLoadRoundTrip(r.0, cache, now);
    r
  }

  /** A token set by hand is valid until five minutes before its lifetime ends, and a
      later load of the cache returns it. */
  lemma SetAccessTokenValid(m: Manager, cache: Cache, now: int, token: string, expiresIn: int, later: int)
    requires StringTruthy(token) && now + expiresIn != 0
    ensures var (m', c') := SetAccessToken(m, cache, now, token, expiresIn);
            && (IsTokenExpired(m', later) <==> later >= now + expiresIn - ExpiryMargin)
            && Load(m, c') == m'
  {
    var (m', c') := SetAccessToken(m, cache, now, token, expiresIn);
    SaveLoadRoundTrip(m', cache, now);
  }

  /** `setRefreshToken($refreshToken)` */
  function SetRefreshToken(m: Manager, cache: Cache, now: int, token: string): (r: (Manager, Cache))
    ensures r.0 == m.(refreshToken := token)
    ensures r.1 == Save(r.0, cache, now)
  {
    var m' := m.(refreshToken := token);
    (m', Save(m', cache, now))
  }

  /** A new refresh token is the one the next grant request sends, and survives a reload. */
  lemma SetRefreshTokenUsed(m: Manager, cache: Cache, now: int, token: string)
    ensures var (m', c') := SetRefreshToken(m, cache, now, token);
            && Grant(m').refreshToken == token
            && Load(m, c').refreshToken == token
  {
    var (m', c') := SetRefreshToken(m, cache, now, token);
    SaveLoadRoundTrip(m', cache, now);
  }

  /** `clearCache()` */
  function ClearCache(m: Manager, cache: Cache): (r: (Manager, Cache))
    ensures r.0 == m.(accessToken := None, expiresAt := None)
    ensures r.1 == cache - {m.cacheKey}
  {
    (m.(accessToken := None, expiresAt := None), cache - {m.cacheKey})
  }

  /** After clearing, the token is expired at every time, the refresh token is kept, and a
      fresh object built over the cleared cache starts with no token. */
  lemma ClearCacheExpires(m: Manager, cache: Cache, now: int)
    ensures var (m', c') := ClearCache(m, cache);
            && IsTokenExpired(m', now)
            && m'.refreshToken == m.refreshToken
            && Load(m', c') == m'
  {
  }
}
